=== FILE: README.md ===
# Chat with Notes: the widget state machine and the server's session logic

This project models the two halves of a small question-and-answer chat
application:

- **The browser widget** (`static/script.js`). It has an input box with
  debounced autocomplete and a suggestion list navigated by keyboard and
  mouse. It also has a Send/Stop button that starts or aborts a `/chat`
  request, a transcript rebuilt from the server's prefixed history, and a
  `localStorage` slot that mirrors the transcript.
- **The Flask server** (`app_bert.py`). It keeps per-session conversations,
  uploaded documents and cached question embeddings. It validates uploads
  and combines their extracted parts into one document. It parses `Q:`/`A:`
  text into question/answer pairs and answers `/autocomplete` by
  case-insensitive substring match.

The modules are:

- `Wrappers`: `Option` and `Result`.
- `Text`: Python's and JavaScript's `strip`/`trim`, lower-casing, substring
  search, `split`/`join`, `replace(…, 1)` and slicing.
- `Wire`: the history-line prefixes `Human: `, `AI: `, `System: ` and the
  suggestion record.
- `QnaParser`: `parse_qna_pairs`.
- `Upload`: `allowed_file`, upload validation and combination of parts.
- `SessionStore`: the server's three dictionaries and the routes that
  change them.
- `Autocomplete`: the `/autocomplete` route.
- `Transcript`: messages and the rebuild of a history.
- `WidgetSpec`: the widget's state as a value, each event handler as a
  function on it, and lemmas over event sequences.
- `ChatWidget`: the widget as a class whose fields are the script's
  variables and whose methods are its handlers. Each handler method is
  proved equal to its `WidgetSpec` function. The helpers
  `ScrollToLatestUserMessage`, `SaveChatHistory` and `AppendHistoryLine`
  instead state their own effect on the fields they change and keep the
  others.

The widget's asynchronous parts become explicit events:

- the debounce timer firing;
- an autocomplete lookup completing;
- a chat request settling with a reply, an abort or a failure;
- a clear request completing.

Any interleaving of these can be replayed with `WidgetSpec.Run`. The
widget's invariant `WidgetSpec.Inv` says:

- the selection is -1 or names an item;
- whenever there is a selection, the item marked active is the selected one;
- a generating widget holds a controller and has a request in flight.

Every handler preserves it.

Some behaviour of the code differs from a natural reading of its design,
and the model follows the code:

- Submitting blank input still hides the suggestion list, because the
  first submit listener always runs.
- The storage slot is written only by `updateChatHistory`. So a `You`
  message is saved only when a later reply rebuilds the transcript from
  the server's history. A `System` message ("Generation stopped." or the
  error text) is never saved: the server's history holds only `Human: `
  and `AI: ` lines, so that rebuild drops it.
- A lookup's result is shown even when the input has changed since the
  lookup was issued.
- An older chat request that settles while a newer one is in flight sets
  the widget idle and drops the controller
  (`WidgetSpec.SettlingOlderRequestIdlesNewer`).
- Hiding the list keeps its items, so the arrow keys still select hidden
  items (`WidgetSpec.HiddenItemsStillNavigable`).
- The "Ask LLM" button an AI reply carries is wiped at once by the
  rebuild that follows (`WidgetSpec.ReplyShowsNoButton`).
- The `/chat` route never sends the no-match fields, so in practice the
  reply options are all absent. The model takes them as a parameter.

## Model

| member | source | states |
|---|---|---|
| Text.StripSpec | app_bert.py:65-67 | `strip()`/`trim()` gives the empty string exactly when the input is all white space; otherwise the result neither starts nor ends with white space |
| Text.LStripSpec | app_bert.py:281 | `lstrip` keeps a suffix of its input; the part it removes is all white space and what is left does not start with white space |
| Text.RStripSpec | app_bert.py:281 | `rstrip` keeps a prefix of its input; the part it removes is all white space and what is left does not end with white space |
| Text.StripEmptyIff | app_bert.py:281 | stripping the trailing side of the left-stripped text leaves nothing exactly when the whole input is white space |
| Text.StripKeepsSolidPrefix | app_bert.py:214 | stripping `p + x` keeps `p` as a prefix when `p` neither starts nor ends with white space |
| Text.Lower | app_bert.py:149 | `lower()` keeps the length and maps each character on its own |
| Text.ContainsSpec | app_bert.py:300 | `t in s` holds exactly when `t` occurs at some position of `s` |
| Text.ContainsShift | app_bert.py:300 | when `t` is not a prefix of a non-empty `s`, it occurs in `s` exactly when it occurs in `s` without its first character |
| Text.ContainsTransitive | app_bert.py:300 | a substring of a substring of `c` is a substring of `c` |
| Text.Split | app_bert.py:60 | `split('\n')` gives at least one piece, and no piece holds the separator |
| Text.JoinSplit | app_bert.py:60 | joining the pieces of `split(sep)` with `sep` gives back the original text |
| Text.ReplaceFirst | app_bert.py:213 | `replace(p, "", 1)` on a text that starts with `p` removes that leading `p` |
| Text.ReplaceFirstAbsent | app_bert.py:213 | a text that does not contain `p` is left unchanged |
| Text.ReplaceFirstAt | app_bert.py:213 | when the first occurrence of `p` is at `i`, exactly the characters `i` to `i + \|p\|` are cut out |
| Text.OccursShift | app_bert.py:213 | `p` occurs at `j + 1` in `s` exactly when it occurs at `j` in `s` without its first character |
| Text.FirstOccurrenceShift | app_bert.py:213 | a first occurrence at `i > 0` is the first occurrence at `i - 1` once the first character is dropped |
| Text.FirstOccurrenceExists | app_bert.py:213 | a text that contains `p` has a first occurrence of it |
| Text.ReplaceFirstSpec | app_bert.py:213 | `replace(p, "", 1)` leaves a text without `p` unchanged and otherwise cuts out exactly the first occurrence of `p` |
| Text.Take | app_bert.py:238 | `s[:n]` is a prefix of `s`: all of `s` when `s` has at most `n` characters, and exactly its first `n` otherwise |
| QnaParser.ClassifyAll | app_bert.py:60-63 | every line is classified, one class per line |
| QnaParser.ParseQnaPairs | app_bert.py:57-72 | the loop over the lines computes the same dictionary as the reference fold `Parsed` |
| QnaParser.LastMarker | app_bert.py:63-70 | finds the last `Q:`/`A:` line before a position; every line between it and the position is neither |
| QnaParser.FoldPending | app_bert.py:61-70 | the pending question before line `i` is the text of the latest marker line when that line is a `Q:` line, and empty otherwise |
| QnaParser.FoldPairs | app_bert.py:63-70 | after any prefix of the lines, a question is a key exactly when some `A:` line with non-empty text followed it as pending question; its value is the answer of the last such line |
| QnaParser.PairsStep | app_bert.py:64-70 | one line of the loop keeps that characterisation of the dictionary |
| QnaParser.StepRecords | app_bert.py:66-69 | an `A:` line with non-empty text and a pending question records that pair, and it is then the last record of the question |
| QnaParser.StepKeeps | app_bert.py:64-70 | a line that records nothing for a question keeps whether and what the dictionary holds for it |
| QnaParser.LastRecordExtends | app_bert.py:64-70 | the last record of a question stays the last when the next line does not record it |
| QnaParser.ParsedCharacterization | app_bert.py:57-72 | the parsed dictionary is exactly the last recorded non-empty answer for each question with a pending `Q:` |
| QnaParser.ParsedHasNoEmptyEntries | app_bert.py:66-69 | no parsed question is empty and no parsed answer is empty |
| Upload.LastDot | app_bert.py:149 | returns the position of the last `.`, and none exactly when the name has no `.` |
| Upload.HasExtensionInSpec | app_bert.py:147-149 | a name has an extension in a given set exactly when it has a `.` and the lower-cased text after its last `.` is in the set |
| Upload.AllowedFileSpec | app_bert.py:147-149 | a name is allowed exactly when it has a `.` and the lower-cased text after its last `.` is one of the eleven extensions |
| Upload.LastDotUnique | app_bert.py:149 | a `.` with no `.` after it is the one `rsplit('.', 1)` splits at |
| Upload.AllowedFileByExtension | app_bert.py:147-149 | `stem.ext`, with a dot-free `ext`, is allowed exactly when `ext` lower-cased is an allowed extension |
| Upload.ValidateUpload | app_bert.py:186-194 | for each of the three errors and for success: the route reports it exactly when its condition holds, checked in order |
| Upload.HasNamedFile | app_bert.py:189 | the scan finds a file with a name exactly when one exists |
| Upload.NamedFilesAllowed | app_bert.py:192-194 | the loop passes exactly when every file with a name has an allowed name |
| Upload.CombineParts | app_bert.py:196-220 | the reading and joining loops compute the reference definition `Combined`, which is the combined document or the first extraction error |
| Upload.ReadParts | app_bert.py:197-208 | the loop over the files computes the reference definition `Collect`: the Q&A and text parts in file order, or the first extraction error |
| Upload.BuildQnaBlock | app_bert.py:211-213 | the loop computes the reference definition `QnaBlock` |
| Upload.BuildSections | app_bert.py:216-219 | the loop appends one `QnaSections` entry per Q&A part after the text parts |
| Upload.QnaBlock | app_bert.py:210-214 | the all-Q&A block starts with `Data:\n` |
| Upload.QnaSections | app_bert.py:216-219 | one headed section per Q&A part |
| Upload.CollectErrSticks | app_bert.py:200-203 | once a file's extraction fails, the files after it do not change the outcome |
| Upload.CollectOk | app_bert.py:200-208 | when no named file fails extraction, reading all files succeeds |
| Upload.CombinedFirstFailure | app_bert.py:196-238 | when named file `k` is the first whose extraction fails, the upload reports `Error: ` and the first 100 characters of its message |
| Upload.Named | app_bert.py:200-202 | keeps only the files with a name |
| Upload.CombinedIgnoresUnnamed | app_bert.py:200-202 | files without a name play no part in the combined document |
| Upload.CollectAppend | app_bert.py:200-208 | reading two lists of files one after the other concatenates their Q&A parts and their text parts |
| Upload.CollectSplits | app_bert.py:200-208 | the Q&A parts come from the Q&A files alone and the text parts from the text files alone, each in file order |
| Upload.CombinedTextBeforeQna | app_bert.py:210-220 | the combined document depends only on the text files in order and the Q&A files in order, not on how they interleave |
| Upload.CombinedQnaOnlyStartsWithData | app_bert.py:210-214 | when every named file is a Q&A table, the stored document starts with `Data:` |
| Upload.StripKeepsData | app_bert.py:214 | stripping a block that starts with `Data:\n` keeps `Data:` at its head |
| SessionStore.ExchangeKeepsWellFormed | app_bert.py:247-254 | a history of alternating `Human: `/`AI: ` lines stays alternating after an exchange |
| SessionStore.Store.constructor | app_bert.py:25-27 | the three dictionaries start empty |
| SessionStore.Store.Upload | app_bert.py:184-238 | a validation or extraction error changes nothing and is reported; on success the document is replaced, the cached embeddings dropped, the conversation reset unless the action is `keep`, and content and history returned |
| SessionStore.Store.Save | app_bert.py:222-236 | the actions `clear`, absent and any other value except `keep` reset the conversation; the document is stored and the cache entry removed |
| SessionStore.Store.Chat | app_bert.py:240-259 | the generator sees the history with the new `Human: ` line; the conversation becomes the exchange; embeddings the generator computed are cached for a non-empty session id that had none |
| SessionStore.Store.ClearChat | app_bert.py:261-266 | a present, non-empty session id gets an empty conversation, and nothing else changes; the reply is always `success` |
| SessionStore.Store.ClearAll | app_bert.py:268-276 | a present, non-empty session id loses its conversation, document and cached embeddings; the reply is always `success` |
| SessionStore.Store.SetConversation | app_bert.py:254 | storing a well-formed history for one session changes only that conversation and keeps every stored history alternating |
| Autocomplete.Filter | app_bert.py:295-305 | the matches are at most as many as the rows |
| Autocomplete.FilterSpec | app_bert.py:295-305 | a row is kept exactly when its question contains the query, ignoring case |
| Autocomplete.FilterAppend | app_bert.py:296-306 | the matches keep the rows' order |
| Autocomplete.SlicePrefix | app_bert.py:307 | `xs[:limit]` is a prefix whose length follows Python slicing, negative limits included |
| Autocomplete.Suggestions | app_bert.py:278-315 | a blank query or a failed database read gives no suggestions; every suggestion is a matching row; the result is the prefix of the matches that Python's `[:limit]` keeps (default 10), so at most `limit` long and exactly as long as that slice |
| Autocomplete.LargerLimitExtends | app_bert.py:282-307 | raising a non-negative limit only adds suggestions at the end |
| Autocomplete.NarrowerQuery | app_bert.py:295-305 | a query containing another matches no row the shorter one does not |
| Transcript.LineMessage | static/script.js:298-313 | a history line becomes a message exactly when it has one of the three prefixes; that message carries no button and is never an `AI` message |
| Transcript.LineMessageRender | static/script.js:298-313 | rendering the message a prefixed line becomes gives the line back |
| Transcript.Rebuild | static/script.js:296-314 | no rebuilt message carries a button or is an `AI` message |
| Transcript.RenderAll | static/script.js:298-313 | rendering gives one line per message |
| Transcript.KeptLines | static/script.js:298-313 | the kept lines are at most as many as the history |
| Transcript.RebuildRoundTrip | static/script.js:298-314 | rendering the rebuilt transcript gives back exactly the history lines with a known prefix, in order |
| Transcript.RebuildAppend | static/script.js:298-314 | the rebuild works line by line: rebuilding `a + b` rebuilds `a`, then `b` |
| Transcript.ExchangeRebuild | static/script.js:298-313 | a server exchange is rebuilt as a `You` message with the input and then an `ML` message with the answer |
| Transcript.RebuildAllKnown | static/script.js:298-313 | a history whose every line has a known prefix becomes one message per line, each the message of its line |
| Transcript.RebuildWellFormed | static/script.js:298-313 | a server history becomes one message per line, `You` and `ML` in turn, with the prefixes removed |
| Transcript.RebuildFlags | static/script.js:302-310 | the rebuild asks for the button on exactly the `ML` messages whose text equals the no-match message, when the options ask for it |
| Transcript.LatestUserMessage | static/script.js:276-282 | finds the last `You` message, or none when there is none |
| WidgetSpec.Initial | static/script.js:357-363 | the page starts with the stored transcript when the slot is non-empty, and otherwise empty with no scroll; the invariant holds |
| WidgetSpec.UserScrollSpec | static/script.js:271-286 | the view scrolls to a message exactly when there is a `You` message, and then to the last one |
| WidgetSpec.ShowAutocomplete | static/script.js:78-101 | the list shows the given suggestions with no selection and no active mark; the invariant is kept |
| WidgetSpec.HideAutocomplete | static/script.js:104-107 | the list is hidden and the selection cleared, its items kept; the invariant is kept |
| WidgetSpec.SetActiveSuggestion | static/script.js:110-120 | an index that names an item becomes the selection; any other index leaves the selection and only clears the mark; the active mark is on the index or nowhere |
| WidgetSpec.SelectSuggestion | static/script.js:123-128 | the suggestion's question goes into the input and the list is hidden with no selection; items and transcript are kept; the invariant is kept |
| WidgetSpec.KeyDown | static/script.js:147-182 | with no items, nothing changes; ArrowDown/ArrowUp move the selection by one without wrapping, mark the new selection active, and change nothing else; at the last item (ArrowDown) or with the first or no item selected (ArrowUp) they change nothing; Enter on a selection only copies its question into the input and hides the list with no selection; Enter with no selection submits exactly when the trimmed input is non-blank and otherwise changes nothing; Escape only hides the list; any other key changes nothing; the invariant holds |
| WidgetSpec.Input | static/script.js:48-53 | an input event keeps the invariant |
| WidgetSpec.DebounceFires | static/script.js:138-141 | the timer is disarmed; a blank trimmed input hides the list and issues no lookup, and any other input issues one lookup for its trimmed text; nothing else changes |
| WidgetSpec.LookupSettled | static/script.js:62-74 | the completed lookup leaves the in-flight set; a non-empty result is shown, and an empty or failed one hides the list; only the list fields and the lookups change |
| WidgetSpec.OrElse | static/script.js:258-259 | `value \|\| fallback`: the fallback for an absent or empty value, and the value otherwise |
| WidgetSpec.AppendMessage | static/script.js:253-269 | one message is appended, with a button only for an `AI` message asked to show it; the no-match memory changes only then; `System` scrolls to the bottom, other senders to the latest `You` message; nothing else changes |
| WidgetSpec.UpdateChatHistory | static/script.js:296-317 | the transcript becomes the rebuilt history, with no buttons; the storage slot holds it; the view scrolls to the latest `You` message |
| WidgetSpec.UpdateChatHistoryIdempotent | static/script.js:296-317 | rebuilding twice from the same history is the same as once |
| WidgetSpec.Submit | static/script.js:192-215 | the list is always hidden; while generating, a submit only aborts the controller and stops generating; blank input does nothing more; other input is appended as a `You` message, the input cleared and one request started, and nothing else changes but the scroll; the invariant holds |
| WidgetSpec.ChatSettled | static/script.js:217-250 | every outcome leaves the widget idle without a controller and one request fewer in flight; a reply replaces the transcript by the rebuilt history and saves it; an abort or a failure appends its `System` message and leaves storage alone |
| WidgetSpec.ClearChatSettled | static/script.js:365-387 | only a `success` status empties the transcript and removes the chat slot, keeping the other storage slots and the rest of the state; anything else changes nothing |
| WidgetSpec.ClearAllSettled | static/script.js:389-413 | only a `success` status empties the transcript and all of storage, and nothing else changes; anything else changes nothing |
| WidgetSpec.Step | static/script.js:144-194 | every event keeps the widget's invariant |
| WidgetSpec.Run | static/script.js:144-194 | every sequence of events keeps the widget's invariant |
| WidgetSpec.RunAppend | static/script.js:144-194 | running two event sequences one after the other is running their concatenation |
| WidgetSpec.RunSingle | static/script.js:144-194 | running one event is one step |
| WidgetSpec.Presses | static/script.js:147-182 | a run of `n` presses of one key |
| WidgetSpec.Typing | static/script.js:48-53 | one input event per typed value |
| WidgetSpec.FireArmed | static/script.js:48-60 | an armed timer firing runs the debounced lookup |
| WidgetSpec.ArrowDownRepeated | static/script.js:154-160 | `n` ArrowDown presses move the selection down `n` places, stopping at the last item |
| WidgetSpec.ArrowUpRepeated | static/script.js:161-167 | `n` ArrowUp presses move the selection up `n` places, stopping at the first item, and keep an absent selection absent |
| WidgetSpec.HiddenItemsStillNavigable | static/script.js:104-107 | after Escape hides the list, ArrowDown still selects its first item while the list stays hidden |
| WidgetSpec.TypingArmsOneTimer | static/script.js:48-53 | any run of input events leaves one timer armed, issues no lookup, and leaves the last value in the input |
| WidgetSpec.DebounceCoalesces | static/script.js:48-60 | typing and then letting the timer fire issues at most one lookup, for the trimmed last value |
| WidgetSpec.ReplyShowsNoButton | static/script.js:230-239 | after a reply settles, no message carries the "Ask LLM" button |
| WidgetSpec.StepKeepsStoredWithoutButtons | static/script.js:353-355 | no event puts a message with a button into the storage slot |
| WidgetSpec.ChatReplyTranscript | static/script.js:229-239 | the reply to a chat shows the earlier history, then the question as `You` and the answer as `ML`; it saves that and scrolls to the question |
| WidgetSpec.SettlingOlderRequestIdlesNewer | static/script.js:247-250 | a request settling while another is in flight leaves the widget idle and without a controller, though a request is still in flight |
| ChatWidget.Widget.constructor | static/script.js:357-363 | the fields equal `WidgetSpec.Initial` of the stored slot |
| ChatWidget.Widget.ScrollToLatestUserMessage | static/script.js:271-286 | the scan asks for the scroll `WidgetSpec.UserScroll` names, and changes nothing else |
| ChatWidget.Widget.ShowAutocomplete | static/script.js:78-101 | the new state is `WidgetSpec.ShowAutocomplete` of the old |
| ChatWidget.Widget.HideAutocomplete | static/script.js:104-107 | the new state is `WidgetSpec.HideAutocomplete` of the old |
| ChatWidget.Widget.SetActiveSuggestion | static/script.js:110-120 | the walk over the items gives `WidgetSpec.SetActiveSuggestion` of the old state |
| ChatWidget.Widget.SelectSuggestion | static/script.js:123-128 | the new state is `WidgetSpec.SelectSuggestion` of the old |
| ChatWidget.Widget.KeyDown | static/script.js:147-182 | the new state is `WidgetSpec.KeyDown` of the old |
| ChatWidget.Widget.Input | static/script.js:48-53 | the new state is `WidgetSpec.Input` of the old |
| ChatWidget.Widget.DebounceFires | static/script.js:138-141 | the new state is `WidgetSpec.DebounceFires` of the old |
| ChatWidget.Widget.LookupSettled | static/script.js:62-74 | the new state is `WidgetSpec.LookupSettled` of the old |
| ChatWidget.Widget.AppendMessage | static/script.js:253-269 | the new state is `WidgetSpec.AppendMessage` of the old |
| ChatWidget.Widget.SaveChatHistory | static/script.js:353-355 | the storage slot is set to the transcript, and nothing else changes |
| ChatWidget.Widget.UpdateChatHistory | static/script.js:296-317 | the loop of appends gives `WidgetSpec.UpdateChatHistory` of the old state, and the button flags it passes along are those `Transcript.RebuildFlags` names |
| ChatWidget.Widget.AppendHistoryLine | static/script.js:298-313 | a line with a known prefix appends its message and any other line is skipped; the button flag passed is the one `Transcript.RebuildFlags` computes for the line; the rest of the state is kept apart from the scroll |
| ChatWidget.Widget.Submit | static/script.js:192-215 | the new state is `WidgetSpec.Submit` of the old |
| ChatWidget.Widget.ChatSettled | static/script.js:217-250 | the new state is `WidgetSpec.ChatSettled` of the old |
| ChatWidget.Widget.ShowOutcome | static/script.js:229-246 | the reply, the abort or the failure is shown as `WidgetSpec.ShowOutcome` says |
| ChatWidget.Widget.ClearChatSettled | static/script.js:375-380 | the new state is `WidgetSpec.ClearChatSettled` of the old |
| ChatWidget.Widget.ClearAllSettled | static/script.js:399-404 | the new state is `WidgetSpec.ClearAllSettled` of the old |
| ChatWidget.Widget.Handle | static/script.js:144-194 | dispatching an event keeps the invariant and gives `WidgetSpec.Step` of the old state |

## Left out

- Text.Lower: lower-cases ASCII letters only, where Python's `str.lower()` maps every Unicode letter; this affects only non-ASCII extensions and queries.
- Text.Strip, Text.LStrip, Text.RStrip: their own contracts give only the length bound; the white-space facts are in the lemmas `Text.StripSpec`, `Text.LStripSpec` and `Text.RStripSpec`.
- Text.ReplaceFirst: its own contract covers only a leading occurrence; the full behaviour is stated by `Text.ReplaceFirstSpec`.
- Autocomplete.Filter: its own contract gives only the length bound; which rows are kept is stated by `Autocomplete.FilterSpec`.
- Text extraction from PDF, spreadsheet and text files (`extract_file_content`): each file arrives with its extracted text, its Q&A flag, or the message of the exception extraction raised.
- The semantic search and answer generation (`find_top_matches`, `generate_response`, the sentence-embedding model, cosine similarity): `/chat` takes the generator as a function parameter. Its effect on the embeddings cache is modelled through the embeddings it reports having computed.
- The PostgreSQL database: `/autocomplete` takes the rows the query returned, or none for a failed query. The `LIMIT 500` of that query is part of the rows given.
- Query-string parsing of `limit` with `type=int`: the limit arrives as an optional integer.
- The Flask session cookie and `uuid4`: every route takes the session id as given. The clearing of the cookie by `/clear_all` is not modelled.
- JSON encoding of requests and responses: responses are datatypes.
- `load_qna.py` and the file staging outside the two core files are not part of this model.
- HTML rendering: `innerHTML`, `escapedText`, CSS classes other than the active mark, the loading overlay, the spinner and the Send/Stop button label. The storage slot holds the message list instead of the serialised HTML.
- The "Ask LLM" button's click handler and the `force_llm` request it sends: the model records only whether a message carries the button and the remembered no-match question and message.
- Exporting the chat, `confirm`/`alert` dialogs and the page reload after clearing everything.
- `scrollIntoView` of the selected suggestion and the `requestAnimationFrame` scheduling of scrolls: the state records the last scroll asked for.
- The fetch transport: each request settles as one event with its outcome, in any order. A network error or a body that is not JSON is the `Failed` outcome. A reply without `full_history`, which appends the AI message and then fails in the rebuild, is not modelled.
- The browser's implicit form submission when Enter is pressed with no suggestion items is the separate `Submitted` event.
- The `/autocomplete` request's URL encoding and its `limit=8`: `Autocomplete.Suggestions` bounds any limit, 8 included.

=== FILE: autocomplete.dfy ===
/**
  * The `/autocomplete` route: the question rows whose text contains the
  * stripped query, ignoring case, in row order, cut to the requested limit.
  * The rows are what the database query returned; `None` stands for a failed
  * query, which the route answers with no suggestions.
  */
module Autocomplete {
  import opened Wrappers
  import opened Text
  import opened Wire

  const DefaultLimit: int := 10

  /** The row's question contains the query, ignoring case. */
  predicate Hit(query: string, row: Suggestion) {
    Contains(Lower(row.question), Lower(query))
  }

  /** The rows that match, in their order. */
  function Filter(query: string, rows: seq<Suggestion>): (r: seq<Suggestion>)
    ensures |r| <= |rows|
  {
    if rows == [] then []
    else
      var init := Filter(query, rows[..|rows| - 1]);
      var last := rows[|rows| - 1];
      if Hit(query, last) then init + [last] else init
  }

  /** A row is kept exactly when it matches. */
  lemma {:induction false} FilterSpec(query: string, rows: seq<Suggestion>)
    ensures forall x :: x in Filter(query, rows) <==> x in rows && Hit(query, x)
  {
    if rows != [] {
      var init := rows[..|rows| - 1];
      FilterSpec(query, init);
      assert rows == init + [rows[|rows| - 1]];
    }
  }

  /** Filtering a concatenation filters each part: the filter keeps the rows' order. */
  lemma {:induction false} FilterAppend(query: string, a: seq<Suggestion>, b: seq<Suggestion>)
    ensures Filter(query, a + b) == Filter(query, a) + Filter(query, b)
  {
    if b == [] {
      assert a + b == a;
    } else {
      var ab := a + b;
      var b', last := b[..|b| - 1], b[|b| - 1];
      var tail := if Hit(query, last) then [last] else [];
      assert ab[..|ab| - 1] == a + b' && ab[|ab| - 1] == last;
      assert Filter(query, ab) == Filter(query, a + b') + tail;
      assert Filter(query, b) == Filter(query, b') + tail;
      FilterAppend(query, a, b');
      assert Filter(query, a) + Filter(query, b') + tail == Filter(query, a) + (Filter(query, b') + tail);
    }
  }

  /** Python's `xs[:limit]`; a negative limit counts from the end. */
  function SlicePrefix<T>(xs: seq<T>, limit: int): (r: seq<T>)
    ensures r <= xs
    ensures limit >= 0 ==> |r| == if limit <= |xs| then limit else |xs|
    ensures limit < 0 ==> |r| == if |xs| + limit >= 0 then |xs| + limit else 0
  {
    if limit >= 0 then
      if limit <= |xs| then xs[..limit] else xs
    else if |xs| + limit >= 0 then xs[..|xs| + limit]
    else []
  }

  /**
    * The suggestions for the raw `q` parameter and the `limit` parameter
    * (`None` when absent or not an integer).
    */
  function Suggestions(q: Option<string>, limit: Option<int>, rows: Option<seq<Suggestion>>): (r: seq<Suggestion>)
    ensures Strip(q.GetOr(""), Python) == "" ==> r == []
    ensures rows.None? ==> r == []
    ensures rows.Some? ==> r <= Filter(Strip(q.GetOr(""), Python), rows.value)
    ensures forall x :: x in r ==> rows.Some? && x in rows.value && Hit(Strip(q.GetOr(""), Python), x)
    ensures |r| <= limit.GetOr(DefaultLimit) || limit.GetOr(DefaultLimit) < 0
    ensures rows.Some? && Strip(q.GetOr(""), Python) != "" ==>
              |r| == |SlicePrefix(Filter(Strip(q.GetOr(""), Python), rows.value), limit.GetOr(DefaultLimit))|
  {
    var query := Strip(q.GetOr(""), Python);
    if query == "" then []
    else
      match rows
      case None => []
      case Some(rs) =>
        FilterSpec(query, rs);
        SlicePrefix(Filter(query, rs), limit.GetOr(DefaultLimit))
  }

  /** A larger non-negative limit only adds suggestions at the end. */
  lemma LargerLimitExtends(q: Option<string>, l1: int, l2: int, rows: Option<seq<Suggestion>>)
    requires 0 <= l1 <= l2
    ensures Suggestions(q, Some(l1), rows) <= Suggestions(q, Some(l2), rows)
  {
    var query := Strip(q.GetOr(""), Python);
    if query != "" && rows.Some? {
      var f := Filter(query, rows.value);
      var s1, s2 := SlicePrefix(f, l1), SlicePrefix(f, l2);
      assert s1 == f[..|s1|] && s2 == f[..|s2|];
      assert s2[..|s1|] == s1;
    }
  }

  /**
    * A query that contains another, ignoring case, matches no row the other
    * does not: typing more narrows the matches.
    */
  lemma NarrowerQuery(q1: string, q2: string, rows: seq<Suggestion>)
    requires Contains(Lower(q2), Lower(q1))
    ensures forall x :: x in Filter(q2, rows) ==> x in Filter(q1, rows)
  {
    FilterSpec(q1, rows);
    FilterSpec(q2, rows);
    forall x | x in Filter(q2, rows) ensures x in Filter(q1, rows) {
      ContainsTransitive(Lower(q1), Lower(q2), Lower(x.question));
    }
  }
}

=== FILE: qna_parser.dfy ===
/**
  * `parse_qna_pairs`: reads `Q:` and `A:` lines into a question-to-answer
  * dictionary. The loop keeps the question waiting for its answer (the empty
  * string stands for Python's `None`: both are false in the `and` test).
  */
module QnaParser {
  import opened Text

  /** Python's `line.startswith('Q:')`. */
  predicate IsQuestionLine(line: string) { |line| >= 2 && line[0] == 'Q' && line[1] == ':' }

  /** Python's `line.startswith('A:')`. */
  predicate IsAnswerLine(line: string) { |line| >= 2 && line[0] == 'A' && line[1] == ':' }

  /** The text after the two-character `Q:`/`A:` marker, stripped. */
  function Rest(line: string): string
    requires |line| >= 2
  {
    Strip(line[2..], Python)
  }

  /** What the loop makes of one line. */
  datatype Line = Question(q: string) | Answer(a: string) | Other

  function Classify(line: string): Line {
    if IsQuestionLine(line) then Question(Rest(line))
    else if IsAnswerLine(line) then Answer(Rest(line))
    else Other
  }

  function ClassifyAll(lines: seq<string>): (r: seq<Line>)
    ensures |r| == |lines|
  {
    seq(|lines|, i requires 0 <= i < |lines| => Classify(lines[i]))
  }

  /** The loop's variables: the pending question and the dictionary built so far. */
  datatype ParserState = ParserState(currentQ: string, pairs: map<string, string>)

  /** What one iteration of the loop does with one line. */
  function Step(st: ParserState, line: Line): ParserState {
    match line
    case Question(q) => st.(currentQ := q)
    case Answer(a) =>
      if st.currentQ != "" then
        ParserState("", if a != "" then st.pairs[st.currentQ := a] else st.pairs)
      else st
    case Other => st
  }

  /** The loop's variables after it has read `ls`. */
  function Fold(ls: seq<Line>): ParserState {
    if ls == [] then ParserState("", map[])
    else Step(Fold(ls[..|ls| - 1]), ls[|ls| - 1])
  }

  /** The dictionary `parse_qna_pairs(content)` returns. */
  function Parsed(content: string): map<string, string> {
    Fold(ClassifyAll(Split(content, '\n'))).pairs
  }

  method ParseQnaPairs(content: string) returns (qna: map<string, string>)
    ensures qna == Parsed(content)
  {
    var lines := Split(content, '\n');
    ghost var ls := ClassifyAll(lines);
    qna := map[];
    var currentQ := "";
    for i := 0 to |lines|
      invariant Fold(ls[..i]) == ParserState(currentQ, qna)
    {
      var line := lines[i];
      assert ls[..i + 1][..i] == ls[..i];
      assert ls[i] == Classify(line);
      if IsQuestionLine(line) {
        currentQ := Strip(line[2..], Python);
      } else if IsAnswerLine(line) && currentQ != "" {
        var answer := Strip(line[2..], Python);
        if answer != "" {
          qna := qna[currentQ := answer];
        }
        currentQ := "";
      }
    }
    assert ls[..|lines|] == ls;
  }

  // A reference description of the result that does not replay the loop.

  /** The position of the last `Q:` or `A:` line before position `i`, or -1. */
  function LastMarker(ls: seq<Line>, i: nat): (j: int)
    requires i <= |ls|
    ensures -1 <= j < i
    ensures j >= 0 ==> !ls[j].Other?
    ensures forall k :: j < k < i ==> ls[k].Other?
  {
    if i == 0 then -1
    else if !ls[i - 1].Other? then i - 1
    else LastMarker(ls, i - 1)
  }

  /**
    * The question pending when line `i` is read: the text of the latest `Q:`
    * line, unless an `A:` line has come after it.
    */
  function PendingBefore(ls: seq<Line>, i: nat): string
    requires i <= |ls|
  {
    var j := LastMarker(ls, i);
    if j >= 0 && ls[j].Question? then ls[j].q else ""
  }

  /** Line `i` is an `A:` line with a non-empty answer to the non-empty pending question `q`. */
  predicate Records(ls: seq<Line>, i: int, q: string) {
    && 0 <= i < |ls|
    && ls[i].Answer?
    && ls[i].a != ""
    && q != ""
    && q == PendingBefore(ls, i)
  }

  /**
    * Line `j`, before position `n`, is the last line that recorded an answer
    * to `q` among the first `n` lines.
    */
  ghost predicate IsLastRecord(ls: seq<Line>, n: int, j: int, q: string) {
    && j < n
    && Records(ls, j, q)
    && forall k :: j < k < n ==> !Records(ls, k, q)
  }

  /** After `i` lines the loop's pending question is `PendingBefore(ls, i)`. */
  lemma {:induction false} FoldPending(ls: seq<Line>, i: nat)
    requires i <= |ls|
    ensures Fold(ls[..i]).currentQ == PendingBefore(ls, i)
  {
    if i == 0 {
      assert ls[..0] == [];
    } else {
      FoldPending(ls, i - 1);
      assert ls[..i][..i - 1] == ls[..i - 1];
    }
  }

  /**
    * The dictionary `pairs` holds, for the first `n` lines, exactly the
    * questions some line recorded an answer to, each with the answer of the
    * last such line.
    */
  ghost predicate PairsAgree(ls: seq<Line>, n: int, pairs: map<string, string>) {
    && (forall q :: q in pairs <==> exists j :: 0 <= j < n && Records(ls, j, q))
    && (forall q :: q in pairs ==> exists j :: IsLastRecord(ls, n, j, q) && pairs[q] == ls[j].a)
  }

  lemma LastRecordExtends(ls: seq<Line>, n: int, j: int, q: string)
    requires IsLastRecord(ls, n, j, q) && !Records(ls, n, q)
    ensures IsLastRecord(ls, n + 1, j, q)
  {
    forall k | j < k < n + 1 ensures !Records(ls, k, q) {
      if k < n {
        assert j < k < n;
      }
    }
  }

  /** After `i` lines the loop's dictionary agrees with the reference description. */
  lemma {:induction false} FoldPairs(ls: seq<Line>, i: nat)
    requires i <= |ls|
    ensures PairsAgree(ls, i, Fold(ls[..i]).pairs)
  {
    if i == 0 {
      assert ls[..0] == [];
    } else {
      var m := i - 1;
      FoldPairs(ls, m);
      FoldPending(ls, m);
      assert ls[..i][..m] == ls[..m];
      PairsStep(ls, m, Fold(ls[..m]), Fold(ls[..i]));
    }
  }

  /** Reading line `m` keeps the dictionary in agreement with the reference description. */
  lemma PairsStep(ls: seq<Line>, m: nat, st: ParserState, st': ParserState)
    requires m < |ls|
    requires st.currentQ == PendingBefore(ls, m)
    requires PairsAgree(ls, m, st.pairs)
    requires st' == Step(st, ls[m])
    ensures PairsAgree(ls, m + 1, st'.pairs)
  {
    forall q
      ensures q in st'.pairs <==> exists j :: 0 <= j < m + 1 && Records(ls, j, q)
      ensures q in st'.pairs ==> exists j :: IsLastRecord(ls, m + 1, j, q) && st'.pairs[q] == ls[j].a
    {
      if Records(ls, m, q) {
        StepRecords(ls, m, st, st', q);
      } else {
        StepKeeps(ls, m, st, st', q);
      }
    }
  }

  /** The question line `m` records an answer to maps to that answer afterwards. */
  lemma StepRecords(ls: seq<Line>, m: nat, st: ParserState, st': ParserState, q: string)
    requires m < |ls|
    requires st.currentQ == PendingBefore(ls, m)
    requires st' == Step(st, ls[m])
    requires Records(ls, m, q)
    ensures q in st'.pairs && exists j :: 0 <= j < m + 1 && Records(ls, j, q)
    ensures IsLastRecord(ls, m + 1, m, q) && st'.pairs[q] == ls[m].a
  {
  }

  /** A question line `m` records nothing for keeps its entry, or its absence. */
  lemma StepKeeps(ls: seq<Line>, m: nat, st: ParserState, st': ParserState, q: string)
    requires m < |ls|
    requires st.currentQ == PendingBefore(ls, m)
    requires PairsAgree(ls, m, st.pairs)
    requires st' == Step(st, ls[m])
    requires !Records(ls, m, q)
    ensures q in st'.pairs <==> exists j :: 0 <= j < m + 1 && Records(ls, j, q)
    ensures q in st'.pairs ==> exists j :: IsLastRecord(ls, m + 1, j, q) && st'.pairs[q] == ls[j].a
  {
    var recorded := ls[m].Answer? && ls[m].a != "" && st.currentQ != "";
    assert recorded ==> q != st.currentQ;
    assert st'.pairs == if recorded then st.pairs[st.currentQ := ls[m].a] else st.pairs;
    if j :| 0 <= j < m + 1 && Records(ls, j, q) {
      assert j < m;
    }
    if q in st.pairs {
      var j :| IsLastRecord(ls, m, j, q) && st.pairs[q] == ls[j].a;
      LastRecordExtends(ls, m, j, q);
      assert st'.pairs[q] == ls[j].a;
    }
  }

  /**
    * `parse_qna_pairs` keeps a question exactly when some `A:` line gave a
    * non-empty answer while it was pending, and maps it to the last such answer.
    */
  lemma ParsedCharacterization(content: string)
    ensures var ls := ClassifyAll(Split(content, '\n')); PairsAgree(ls, |ls|, Parsed(content))
  {
    var ls := ClassifyAll(Split(content, '\n'));
    FoldPairs(ls, |ls|);
    assert ls[..|ls|] == ls;
  }

  /** No key and no value of the result is empty. */
  lemma ParsedHasNoEmptyEntries(content: string)
    ensures "" !in Parsed(content)
    ensures forall q :: q in Parsed(content) ==> Parsed(content)[q] != ""
  {
    ParsedCharacterization(content);
  }
}

=== FILE: session_store.dfy ===
/**
  * The server's per-session storage: the conversation lines, the uploaded
  * document and the cached question embeddings, each keyed by session id,
  * and the routes that change them (`/upload`, `/chat`, `/clear_chat`,
  * `/clear_all`). The session id is given: the caller has already read it
  * from the cookie or made a fresh one.
  */
module SessionStore {
  import opened Wrappers
  import opened Wire
  import opened Upload

  /** The embedding vectors of a session's questions; their values play no part here. */
  type Embeddings = seq<seq<real>>

  /** What the answer generator returns: the answer text, and the embeddings it computed, if it computed any. */
  datatype Generated = Generated(answer: string, computed: Option<Embeddings>)

  /**
    * The answer generator, taken as given: it sees the prompt, the history
    * with the new `Human: ` line, the session's document and the session's
    * cached embeddings.
    */
  type Generator = (string, seq<string>, string, Option<Embeddings>) -> Generated

  datatype UploadResponse = UploadError(error: string) | UploadSuccess(content: string, chatHistory: seq<string>)

  datatype StatusResponse = StatusResponse(status: string, message: string)

  /** The document an upload stores, or the error it reports; validation comes first. */
  function UploadOutcome(files: seq<UploadFile>): Result<string, string> {
    if files == [] then Err("No file part")
    else if !AnyNamed(files) then Err("No selected file")
    else if !AllNamedAllowed(files) then Err("File type not allowed")
    else Combined(files)
  }

  /** The history the store keeps for `sid`, or the empty one. */
  function HistoryOf(conversations: map<string, seq<string>>, sid: string): seq<string> {
    if sid in conversations then conversations[sid] else []
  }

  /** A `/chat` exchange: the `Human: ` line and then the `AI: ` line, after what was there. */
  function Exchange(history: seq<string>, input: string, answer: string): seq<string> {
    history + [HumanPrefix + input, AIPrefix + answer]
  }

  /** An exchange keeps a history well formed. */
  lemma ExchangeKeepsWellFormed(history: seq<string>, input: string, answer: string)
    requires WellFormedHistory(history)
    ensures WellFormedHistory(Exchange(history, input, answer))
  {
    var r := Exchange(history, input, answer);
    forall i | 0 <= i < |r|
      ensures if i % 2 == 0 then HumanPrefix <= r[i] else AIPrefix <= r[i]
    {
      if i < |history| {
        assert r[i] == history[i];
      }
    }
  }

  class Store {
    var conversations: map<string, seq<string>>
    var documents: map<string, string>
    var qnaEmbeddingsCache: map<string, Embeddings>

    /** Every kept conversation alternates `Human: ` and `AI: ` lines. */
    ghost predicate Valid()
      reads this
    {
      forall sid :: sid in conversations ==> WellFormedHistory(conversations[sid])
    }

    constructor ()
      ensures conversations == map[] && documents == map[] && qnaEmbeddingsCache == map[]
      ensures Valid()
    {
      conversations := map[];
      documents := map[];
      qnaEmbeddingsCache := map[];
    }

    /**
      * `/upload`: on a validation or extraction error nothing changes; on
      * success the session's document is replaced, its cached embeddings
      * dropped, and its conversation reset unless the action is `keep`.
      */
    method Upload(sid: string, files: seq<UploadFile>, action: Option<string>) returns (resp: UploadResponse)
      requires Valid()
      modifies this
      ensures Valid()
      ensures UploadOutcome(files).Err? ==>
                && resp == UploadError(UploadOutcome(files).error)
                && conversations == old(conversations)
                && documents == old(documents)
                && qnaEmbeddingsCache == old(qnaEmbeddingsCache)
      ensures UploadOutcome(files).Ok? ==>
                && documents == old(documents)[sid := UploadOutcome(files).value]
                && qnaEmbeddingsCache == old(qnaEmbeddingsCache) - {sid}
                && conversations == (if action.GetOr("upload") == "keep" then old(conversations)
                                     else old(conversations)[sid := []])
                && resp == UploadSuccess(UploadOutcome(files).value, HistoryOf(conversations, sid))
    {
      var err := ValidateUpload(files);
      if err.Some? {
        assert UploadOutcome(files) == Err(err.value);
        return UploadError(err.value);
      }
      assert AnyNamed(files) && AllNamedAllowed(files);
      var combined := CombineParts(files);
      assert UploadOutcome(files) == combined;
      if combined.Err? {
        return UploadError(combined.error);
      }
      resp := Save(sid, combined.value, action);
    }

    /** The successful end of `/upload`: stores the document and applies the action. */
    method Save(sid: string, content: string, action: Option<string>) returns (resp: UploadResponse)
      requires Valid()
      modifies this
      ensures Valid()
      ensures documents == old(documents)[sid := content]
      ensures qnaEmbeddingsCache == old(qnaEmbeddingsCache) - {sid}
      ensures conversations == (if action.GetOr("upload") == "keep" then old(conversations)
                                else old(conversations)[sid := []])
      ensures resp == UploadSuccess(content, HistoryOf(conversations, sid))
    {
      var act := action.GetOr("upload");
      if act == "clear" {
        conversations := conversations[sid := []];
      } else if act != "keep" {
        conversations := conversations[sid := []];
      }
      documents := documents[sid := content];
      qnaEmbeddingsCache := qnaEmbeddingsCache - {sid};
      resp := UploadSuccess(content, HistoryOf(conversations, sid));
    }

    /**
      * `/chat`: appends the `Human: ` line, asks the generator, appends the
      * `AI: ` line, and caches the embeddings the generator computed when the
      * session had none cached.
      */
    method Chat(sid: string, input: string, generate: Generator) returns (response: string, fullHistory: seq<string>)
      requires Valid()
      modifies this
      ensures Valid()
      ensures var history := HistoryOf(old(conversations), sid);
              var withQuestion := history + [HumanPrefix + input];
              var cached := if sid != "" && sid in old(qnaEmbeddingsCache) then Some(old(qnaEmbeddingsCache)[sid]) else None;
              var g := generate(input, withQuestion, if sid in old(documents) then old(documents)[sid] else "", cached);
              && response == g.answer
              && fullHistory == Exchange(history, input, g.answer)
              && conversations == old(conversations)[sid := fullHistory]
              && documents == old(documents)
              && qnaEmbeddingsCache == (if sid !in old(qnaEmbeddingsCache) && sid != "" && g.computed.Some?
                                        then old(qnaEmbeddingsCache)[sid := g.computed.value]
                                        else old(qnaEmbeddingsCache))
    {
      var history := HistoryOf(conversations, sid);
      var fileContent := if sid in documents then documents[sid] else "";
      history := history + [HumanPrefix + input];
      var cached := if sid != "" && sid in qnaEmbeddingsCache then Some(qnaEmbeddingsCache[sid]) else None;
      var g := generate(input, history, fileContent, cached);
      if sid !in qnaEmbeddingsCache && sid != "" && g.computed.Some? {
        qnaEmbeddingsCache := qnaEmbeddingsCache[sid := g.computed.value];
      }
      history := history + [AIPrefix + g.answer];
      ExchangeKeepsWellFormed(HistoryOf(conversations, sid), input, g.answer);
      SetConversation(sid, history);
      response := g.answer;
      fullHistory := history;
    }

    /** Stores a well-formed history for `sid`; nothing else changes. */
    method SetConversation(sid: string, history: seq<string>)
      requires Valid() && WellFormedHistory(history)
      modifies this
      ensures Valid()
      ensures conversations == old(conversations)[sid := history]
      ensures documents == old(documents) && qnaEmbeddingsCache == old(qnaEmbeddingsCache)
    {
      conversations := conversations[sid := history];
      forall k | k in conversations ensures WellFormedHistory(conversations[k]) {
        if k != sid {
          assert conversations[k] == old(conversations)[k];
        }
      }
    }

    /** `/clear_chat`: empties the conversation of a present, non-empty session id, and reports success. */
    method ClearChat(sid: Option<string>) returns (resp: StatusResponse)
      requires Valid()
      modifies this
      ensures Valid()
      ensures resp.status == "success"
      ensures conversations == (if sid.Some? && sid.value != "" then old(conversations)[sid.value := []]
                                else old(conversations))
      ensures documents == old(documents) && qnaEmbeddingsCache == old(qnaEmbeddingsCache)
    {
      if sid.Some? && sid.value != "" {
        conversations := conversations[sid.value := []];
      }
      resp := StatusResponse("success", "Chat history cleared");
    }

    /** `/clear_all`: forgets everything kept for a present, non-empty session id, and reports success. */
    method ClearAll(sid: Option<string>) returns (resp: StatusResponse)
      requires Valid()
      modifies this
      ensures Valid()
      ensures resp.status == "success"
      ensures sid.Some? && sid.value != "" ==>
                && conversations == old(conversations) - {sid.value}
                && documents == old(documents) - {sid.value}
                && qnaEmbeddingsCache == old(qnaEmbeddingsCache) - {sid.value}
      ensures !(sid.Some? && sid.value != "") ==>
                && conversations == old(conversations)
                && documents == old(documents)
                && qnaEmbeddingsCache == old(qnaEmbeddingsCache)
    {
      if sid.Some? && sid.value != "" {
        conversations := conversations - {sid.value};
        documents := documents - {sid.value};
        qnaEmbeddingsCache := qnaEmbeddingsCache - {sid.value};
      }
      resp := StatusResponse("success", "All data cleared");
    }
  }
}

=== FILE: text.dfy ===
/**
  * The string operations both components rely on: stripping white space
  * (Python's `str.strip()` and JavaScript's `String.prototype.trim()`),
  * ASCII lower-casing, substring search, splitting on a separator, joining,
  * and Python's `str.replace(old, "", 1)`.
  */
module Text {

  /** Whose notion of white space a strip uses: the two sets differ in a few code points. */
  datatype Runtime = Python | JavaScript

  /** Python's `str.isspace` and JavaScript's WhiteSpace and LineTerminator, by code point. */
  predicate IsSpace(c: char, rt: Runtime) {
    var n := c as int;
    || n == 0x20 || 0x09 <= n <= 0x0D || n == 0xA0 || n == 0x1680 || 0x2000 <= n <= 0x200A
    || n == 0x2028 || n == 0x2029 || n == 0x202F || n == 0x205F || n == 0x3000
    || (rt == Python && (0x1C <= n <= 0x1F || n == 0x85))
    || (rt == JavaScript && n == 0xFEFF)
  }

  predicate AllSpace(s: string, rt: Runtime) {
    forall i :: 0 <= i < |s| ==> IsSpace(s[i], rt)
  }

  /** Drops leading white space. */
  function LStrip(s: string, rt: Runtime): (r: string)
    ensures |r| <= |s|
  {
    if |s| > 0 && IsSpace(s[0], rt) then LStrip(s[1..], rt) else s
  }

  /** `LStrip` drops exactly the leading run of white space. */
  lemma {:induction false} LStripSpec(s: string, rt: Runtime)
    ensures LStrip(s, rt) == s[|s| - |LStrip(s, rt)|..]
    ensures LStrip(s, rt) == [] || !IsSpace(LStrip(s, rt)[0], rt)
    ensures AllSpace(s[..|s| - |LStrip(s, rt)|], rt)
  {
    if |s| > 0 && IsSpace(s[0], rt) {
      var t := s[1..];
      LStripSpec(t, rt);
      var r := LStrip(t, rt);
      var dropped := t[..|t| - |r|];
      assert LStrip(s, rt) == r;
      assert r == s[|s| - |r|..];
      forall i | 0 <= i < |s| - |r| ensures IsSpace(s[i], rt) {
        if i > 0 {
          assert s[i] == dropped[i - 1];
          assert IsSpace(dropped[i - 1], rt);
        }
      }
    }
  }

  /** Drops trailing white space. */
  function RStrip(s: string, rt: Runtime): (r: string)
    ensures |r| <= |s|
  {
    if |s| > 0 && IsSpace(s[|s| - 1], rt) then RStrip(s[..|s| - 1], rt) else s
  }

  /** `RStrip` drops exactly the trailing run of white space. */
  lemma {:induction false} RStripSpec(s: string, rt: Runtime)
    ensures RStrip(s, rt) == s[..|RStrip(s, rt)|]
    ensures RStrip(s, rt) == [] || !IsSpace(RStrip(s, rt)[|RStrip(s, rt)| - 1], rt)
    ensures AllSpace(s[|RStrip(s, rt)|..], rt)
  {
    if |s| > 0 && IsSpace(s[|s| - 1], rt) {
      RStripSpec(s[..|s| - 1], rt);
      var r := RStrip(s, rt);
      assert s[|r|..] == s[..|s| - 1][|r|..] + [s[|s| - 1]];
    }
  }

  /** Drops white space at both ends. */
  function Strip(s: string, rt: Runtime): (r: string)
    ensures |r| <= |s|
  {
    RStrip(LStrip(s, rt), rt)
  }

  /**
    * The result of `Strip` neither starts nor ends with white space, and it is
    * empty exactly when `s` is all white space.
    */
  lemma StripSpec(s: string, rt: Runtime)
    ensures Strip(s, rt) == [] <==> AllSpace(s, rt)
    ensures Strip(s, rt) != [] ==> !IsSpace(Strip(s, rt)[0], rt) && !IsSpace(Strip(s, rt)[|Strip(s, rt)| - 1], rt)
  {
    var l := LStrip(s, rt);
    LStripSpec(s, rt);
    RStripSpec(l, rt);
    StripEmptyIff(s, l, rt);
  }

  lemma StripEmptyIff(s: string, l: string, rt: Runtime)
    requires l == LStrip(s, rt)
    ensures RStrip(l, rt) == [] <==> AllSpace(s, rt)
  {
    LStripSpec(s, rt);
    RStripSpec(l, rt);
    if RStrip(l, rt) == [] {
      assert l[0..] == l;
      assert l == [];
      assert s[..|s|] == s;
    }
  }

  /**
    * Stripping keeps a leading part `p` that starts and ends with a
    * non-space character whole.
    */
  lemma StripKeepsSolidPrefix(p: string, x: string, rt: Runtime)
    requires p != [] && !IsSpace(p[0], rt) && !IsSpace(p[|p| - 1], rt)
    ensures p <= Strip(p + x, rt)
  {
    var s := p + x;
    assert LStrip(s, rt) == s;
    var r := RStrip(s, rt);
    RStripSpec(s, rt);
    assert s[|p| - 1] == p[|p| - 1];
    assert |r| >= |p|;
    assert r[..|p|] == p;
  }

  /** Lower-cases the ASCII letters and leaves every other character alone. */
  function LowerChar(c: char): char {
    if 'A' <= c <= 'Z' then (c as int + 32) as char else c
  }

  function Lower(s: string): (r: string)
    ensures |r| == |s| && forall i :: 0 <= i < |s| ==> r[i] == LowerChar(s[i])
  {
    if s == [] then [] else [LowerChar(s[0])] + Lower(s[1..])
  }

  /** `t` occurs in `s` starting at position `i`. */
  predicate OccursAt(s: string, t: string, i: int) {
    0 <= i <= |s| - |t| && s[i..i + |t|] == t
  }

  /** Python's `t in s` and JavaScript's `s.includes(t)`. */
  function Contains(s: string, t: string): bool
    decreases |s|
  {
    if t <= s then true
    else if |s| == 0 then false
    else Contains(s[1..], t)
  }

  /** `t in s` holds exactly when `t` occurs at some position of `s`. */
  lemma {:induction false} ContainsSpec(s: string, t: string)
    ensures Contains(s, t) <==> exists i :: OccursAt(s, t, i)
    decreases |s|
  {
    if t <= s {
      assert OccursAt(s, t, 0);
    } else if |s| > 0 {
      ContainsSpec(s[1..], t);
      ContainsShift(s, t);
    }
  }

  lemma ContainsShift(s: string, t: string)
    requires |s| > 0 && !(t <= s)
    ensures (exists i :: OccursAt(s, t, i)) <==> (exists i :: OccursAt(s[1..], t, i))
  {
    if i :| OccursAt(s, t, i) {
      assert i != 0;
      assert s[1..][i - 1..i - 1 + |t|] == s[i..i + |t|];
      assert OccursAt(s[1..], t, i - 1);
    }
    if i :| OccursAt(s[1..], t, i) {
      assert s[1..][i..i + |t|] == s[i + 1..i + 1 + |t|];
      assert OccursAt(s, t, i + 1);
    }
  }

  /** Containment is transitive: a substring of a substring is a substring. */
  lemma ContainsTransitive(a: string, b: string, c: string)
    requires Contains(b, a) && Contains(c, b)
    ensures Contains(c, a)
  {
    ContainsSpec(b, a);
    ContainsSpec(c, b);
    ContainsSpec(c, a);
    var i :| OccursAt(b, a, i);
    var j :| OccursAt(c, b, j);
    forall k | 0 <= k < |a| ensures c[j + i + k] == a[k] {
      assert a[k] == b[i + k];
      assert b[i + k] == c[j + i + k];
    }
    assert c[j + i..j + i + |a|] == a;
    assert OccursAt(c, a, j + i);
  }

  /** Python's `s.split(sep)` with a one-character separator; `""` splits into `[""]`. */
  function Split(s: string, sep: char): (r: seq<string>)
    ensures |r| >= 1
    ensures forall i :: 0 <= i < |r| ==> sep !in r[i]
  {
    if s == [] then [[]]
    else
      var rest := Split(s[1..], sep);
      if s[0] == sep then [[]] + rest
      else
        assert sep !in rest[0];
        [[s[0]] + rest[0]] + rest[1..]
  }

  /** Python's `sep.join(xs)` and JavaScript's `xs.join(sep)`. */
  function Join(xs: seq<string>, sep: string): string {
    if |xs| == 0 then []
    else if |xs| == 1 then xs[0]
    else xs[0] + sep + Join(xs[1..], sep)
  }

  /** Splitting and joining back with the same separator gives the string back. */
  lemma {:induction false} JoinSplit(s: string, sep: char)
    ensures Join(Split(s, sep), [sep]) == s
  {
    if s != [] {
      var rest := Split(s[1..], sep);
      JoinSplit(s[1..], sep);
      if s[0] == sep {
        assert Split(s, sep) == [[]] + rest;
        assert ([[]] + rest)[1..] == rest;
      } else {
        assert Split(s, sep) == [[s[0]] + rest[0]] + rest[1..];
        if |rest| == 1 {
          assert rest == [rest[0]];
        } else {
          assert Join(rest, [sep]) == rest[0] + [sep] + Join(rest[1..], [sep]);
          assert ([[s[0]] + rest[0]] + rest[1..])[1..] == rest[1..];
        }
      }
    }
  }

  /**
    * Python's `s.replace(p, "", 1)`: removes the first occurrence of `p`,
    * if there is one.
    */
  function ReplaceFirst(s: string, p: string): (r: string)
    requires |p| > 0
    ensures p <= s ==> r == s[|p|..]
    decreases |s|
  {
    if |s| < |p| then s
    else if p <= s then s[|p|..]
    else [s[0]] + ReplaceFirst(s[1..], p)
  }

  /** `p` occurs at `i` and at no earlier position of `s`. */
  predicate FirstOccurrence(s: string, p: string, i: int) {
    OccursAt(s, p, i) && forall j :: 0 <= j < i ==> !OccursAt(s, p, j)
  }

  /** Without an occurrence of `p` the text is unchanged. */
  lemma {:induction false} ReplaceFirstAbsent(s: string, p: string)
    requires |p| > 0 && !Contains(s, p)
    ensures ReplaceFirst(s, p) == s
    decreases |s|
  {
    if |s| >= |p| {
      ReplaceFirstAbsent(s[1..], p);
      assert [s[0]] + s[1..] == s;
    }
  }

  /** When `p` first occurs at `i`, exactly that occurrence is cut out. */
  lemma {:induction false} ReplaceFirstAt(s: string, p: string, i: int)
    requires |p| > 0 && FirstOccurrence(s, p, i)
    ensures ReplaceFirst(s, p) == s[..i] + s[i + |p|..]
    decreases |s|
  {
    if i == 0 {
      assert s[..|p|] == p;
    } else {
      var t := s[1..];
      assert !OccursAt(s, p, 0);
      assert !(p <= s) by { assert s[0..|p|] == s[..|p|]; }
      assert ReplaceFirst(s, p) == [s[0]] + ReplaceFirst(t, p);
      FirstOccurrenceShift(s, p, i);
      ReplaceFirstAt(t, p, i - 1);
      assert t[..i - 1] == s[1..i] && t[i - 1 + |p|..] == s[i + |p|..];
      assert [s[0]] + s[1..i] == s[..i];
    }
  }

  /** `p` occurs at `j + 1` in `s` exactly when it occurs at `j` in `s[1..]`. */
  lemma OccursShift(s: string, p: string, j: int)
    requires |s| > 0 && 0 <= j
    ensures OccursAt(s, p, j + 1) <==> OccursAt(s[1..], p, j)
  {
    if j + 1 <= |s| - |p| {
      assert s[1..][j..j + |p|] == s[j + 1..j + 1 + |p|];
    }
  }

  /** A first occurrence past the first character is a first occurrence in the tail. */
  lemma FirstOccurrenceShift(s: string, p: string, i: int)
    requires FirstOccurrence(s, p, i) && i > 0
    ensures FirstOccurrence(s[1..], p, i - 1)
  {
    OccursShift(s, p, i - 1);
    forall j | 0 <= j < i - 1 ensures !OccursAt(s[1..], p, j) {
      OccursShift(s, p, j);
    }
  }

  /** A text that contains `p` has a first occurrence of it. */
  lemma {:induction false} FirstOccurrenceExists(s: string, p: string)
    requires Contains(s, p)
    ensures exists i :: FirstOccurrence(s, p, i)
    decreases |s|
  {
    if p <= s {
      assert s[0..|p|] == s[..|p|];
      assert FirstOccurrence(s, p, 0);
    } else {
      var t := s[1..];
      FirstOccurrenceExists(t, p);
      var k :| FirstOccurrence(t, p, k);
      assert !OccursAt(s, p, 0) by { assert s[0..|p|] == s[..|p|]; }
      OccursShift(s, p, k);
      forall j | 0 < j < k + 1 ensures !OccursAt(s, p, j) {
        OccursShift(s, p, j - 1);
      }
      assert FirstOccurrence(s, p, k + 1);
    }
  }

  /**
    * Without an occurrence of `p` the text is unchanged; otherwise exactly
    * the first occurrence is cut out.
    */
  lemma ReplaceFirstSpec(s: string, p: string)
    requires |p| > 0
    ensures !Contains(s, p) ==> ReplaceFirst(s, p) == s
    ensures Contains(s, p) ==>
              exists i :: FirstOccurrence(s, p, i) && ReplaceFirst(s, p) == s[..i] + s[i + |p|..]
  {
    if Contains(s, p) {
      FirstOccurrenceExists(s, p);
      var i :| FirstOccurrence(s, p, i);
      ReplaceFirstAt(s, p, i);
    } else {
      ReplaceFirstAbsent(s, p);
    }
  }

  /** Python's `s[:n]` for `n >= 0`. */
  function Take(s: string, n: nat): (r: string)
    ensures |r| <= n && r <= s
    ensures |s| <= n ==> r == s
    ensures |s| > n ==> |r| == n
  {
    if |s| <= n then s else s[..n]
  }
}

=== FILE: transcript.dfy ===
/**
  * The chat transcript the widget shows: the messages, how the server's
  * prefixed history is rebuilt into them, and which message the view
  * scrolls to.
  */
module Transcript {
  import opened Wrappers
  import opened Wire

  /**
    * Who a message is from. `AI` is used for a reply as it arrives, `ML` for
    * an answer line of a rebuilt history.
    */
  datatype Sender = You | AI | ML | System

  /** One message element: its sender, its text and whether an "Ask LLM" button is attached. */
  datatype Message = Message(sender: Sender, text: string, hasButton: bool)

  /**
    * The options passed along with a reply: whether the server found no
    * Q&A match, the question it was about and the message it answered with.
    * `None` stands for a field the reply does not carry.
    */
  datatype NoMatchOptions = NoMatchOptions(showLlmButton: bool, question: Option<string>, noMatchMessage: Option<string>)

  const NoOptions: NoMatchOptions := NoMatchOptions(false, None, None)

  /** The history line a message stands for. */
  function Render(m: Message): string {
    match m.sender
    case You => HumanPrefix + m.text
    case AI => AIPrefix + m.text
    case ML => AIPrefix + m.text
    case System => SystemPrefix + m.text
  }

  function RenderAll(t: seq<Message>): (r: seq<string>)
    ensures |r| == |t|
  {
    if t == [] then [] else RenderAll(t[..|t| - 1]) + [Render(t[|t| - 1])]
  }

  /** The rebuild keeps a line exactly when it starts with one of the three prefixes. */
  predicate Known(line: string) {
    HumanPrefix <= line || AIPrefix <= line || SystemPrefix <= line
  }

  function KeptLines(h: seq<string>): (r: seq<string>)
    ensures |r| <= |h|
  {
    if h == [] then [] else KeptLines(h[..|h| - 1]) + (if Known(h[|h| - 1]) then [h[|h| - 1]] else [])
  }

  /** The message one history line becomes, if any. */
  function LineMessage(line: string): (r: Option<Message>)
    ensures r.Some? <==> Known(line)
    ensures r.Some? ==> !r.value.hasButton && r.value.sender != AI
  {
    if HumanPrefix <= line then Some(Message(You, line[7..], false))
    else if AIPrefix <= line then Some(Message(ML, line[4..], false))
    else if SystemPrefix <= line then Some(Message(System, line[8..], false))
    else None
  }

  /** Rendering the message a line becomes gives the line back. */
  lemma LineMessageRender(line: string)
    requires Known(line)
    ensures Render(LineMessage(line).value) == line
  {
    if HumanPrefix <= line {
      assert line == HumanPrefix + line[7..];
    } else if AIPrefix <= line {
      assert line == AIPrefix + line[4..];
    } else {
      assert line == SystemPrefix + line[8..];
    }
  }

  /** The transcript `updateChatHistory` builds from a history, line by line. */
  function Rebuild(h: seq<string>): (t: seq<Message>)
    ensures forall i :: 0 <= i < |t| ==> !t[i].hasButton && t[i].sender != AI
  {
    if h == [] then []
    else
      match LineMessage(h[|h| - 1])
      case Some(m) => Rebuild(h[..|h| - 1]) + [m]
      case None => Rebuild(h[..|h| - 1])
  }

  /** Rendering the rebuilt transcript gives back exactly the kept lines, in order. */
  lemma {:induction false} RebuildRoundTrip(h: seq<string>)
    ensures RenderAll(Rebuild(h)) == KeptLines(h)
  {
    if h != [] {
      RebuildRoundTrip(h[..|h| - 1]);
      var t := Rebuild(h[..|h| - 1]);
      match LineMessage(h[|h| - 1])
      case Some(m) =>
        LineMessageRender(h[|h| - 1]);
        assert (t + [m])[..|t|] == t;
      case None =>
    }
  }

  /** Rebuilding a concatenation rebuilds each part. */
  lemma {:induction false} RebuildAppend(a: seq<string>, b: seq<string>)
    ensures Rebuild(a + b) == Rebuild(a) + Rebuild(b)
  {
    if b == [] {
      assert a + b == a;
    } else {
      var b' := b[..|b| - 1];
      RebuildAppend(a, b');
      assert (a + b)[..|a + b| - 1] == a + b';
      assert (a + b)[|a + b| - 1] == b[|b| - 1];
    }
  }

  /**
    * What a `/chat` exchange adds to the server's history becomes, after the
    * rebuild, exactly a `You` message with the input and an `ML` message with
    * the answer.
    */
  lemma ExchangeRebuild(h: seq<string>, input: string, answer: string)
    ensures Rebuild(h + [HumanPrefix + input, AIPrefix + answer])
         == Rebuild(h) + [Message(You, input, false), Message(ML, answer, false)]
  {
    var q: string, a: string := HumanPrefix + input, AIPrefix + answer;
    var none: seq<string> := [];
    RebuildAppend(h, [q, a]);
    assert [q, a] == [q] + [a];
    RebuildAppend([q], [a]);
    assert [q][..0] == none && [a][..0] == none;
    assert q[7..] == input && a[4..] == answer;
    assert !(HumanPrefix <= a) by { assert a[0] == 'A'; }
  }

  /** A history whose every line has a known prefix becomes one message per line. */
  lemma {:induction false} RebuildAllKnown(h: seq<string>)
    requires forall i :: 0 <= i < |h| ==> Known(h[i])
    ensures |Rebuild(h)| == |h|
    ensures forall i :: 0 <= i < |h| ==> Rebuild(h)[i] == LineMessage(h[i]).value
  {
    if h != [] {
      var init := h[..|h| - 1];
      RebuildAllKnown(init);
      var m := LineMessage(h[|h| - 1]).value;
      assert Rebuild(h) == Rebuild(init) + [m];
      forall i | 0 <= i < |h| ensures Rebuild(h)[i] == LineMessage(h[i]).value {
        if i < |h| - 1 {
          assert h[i] == init[i];
        }
      }
    }
  }

  /** A history of `Human: ` and `AI: ` pairs becomes one message per line, `You` and `ML` in turn. */
  lemma RebuildWellFormed(h: seq<string>)
    requires WellFormedHistory(h)
    ensures |Rebuild(h)| == |h|
    ensures forall i :: 0 <= i < |h| && i % 2 == 0 ==> Rebuild(h)[i] == Message(You, h[i][7..], false)
    ensures forall i :: 0 <= i < |h| && i % 2 == 1 ==> Rebuild(h)[i] == Message(ML, h[i][4..], false)
  {
    forall i | 0 <= i < |h| ensures Known(h[i]) {
      assert HumanPrefix <= h[i] || AIPrefix <= h[i];
    }
    RebuildAllKnown(h);
    forall i | 0 <= i < |h| && i % 2 == 1 ensures Rebuild(h)[i] == Message(ML, h[i][4..], false) {
      assert AIPrefix <= h[i];
      assert !(HumanPrefix <= h[i]) by { assert h[i][0] == 'A'; }
    }
  }

  /**
    * The button flag the rebuild computes for each message: only an answer
    * line equal to the no-match message, when the button is asked for.
    */
  function RebuildFlags(h: seq<string>, opts: NoMatchOptions): (r: seq<bool>)
    ensures |r| == |Rebuild(h)|
    ensures forall i :: 0 <= i < |r| ==>
              (r[i] <==> Rebuild(h)[i].sender == ML && opts.showLlmButton
                         && opts.noMatchMessage == Some(Rebuild(h)[i].text))
  {
    if h == [] then []
    else
      var init := RebuildFlags(h[..|h| - 1], opts);
      match LineMessage(h[|h| - 1])
      case Some(m) =>
        init + [m.sender == ML && opts.showLlmButton && opts.noMatchMessage == Some(m.text)]
      case None => init
  }

  /** The position of the latest `You` message, which the view scrolls to. */
  function LatestUserMessage(t: seq<Message>): (r: Option<nat>)
    ensures r.Some? ==> r.value < |t| && t[r.value].sender == You
    ensures r.Some? ==> forall j :: r.value < j < |t| ==> t[j].sender != You
    ensures r.None? ==> forall j :: 0 <= j < |t| ==> t[j].sender != You
  {
    if t == [] then None
    else if t[|t| - 1].sender == You then Some(|t| - 1)
    else LatestUserMessage(t[..|t| - 1])
  }
}

=== FILE: upload.dfy ===
/**
  * The text logic of the `/upload` route: the extension allow-list, the
  * validation of the submitted files, and how the extracted parts are
  * combined into one document. Extraction itself (PDF, spreadsheet and text
  * decoding) is not modelled: each file arrives with what extraction
  * produced for it.
  */
module Upload {
  import opened Wrappers
  import opened Text

  const AllowedExtensions: set<string> :=
    {"txt", "md", "py", "js", "html", "css", "json", "pdf", "xlsx", "xls", "csv"}

  /** The position of the last `.` in `s`, if there is one. */
  function LastDot(s: string): (r: Option<nat>)
    ensures r.None? <==> '.' !in s
    ensures r.Some? ==> r.value < |s| && s[r.value] == '.' && '.' !in s[r.value + 1..]
  {
    if s == [] then None
    else if s[|s| - 1] == '.' then Some(|s| - 1)
    else
      var r := LastDot(s[..|s| - 1]);
      assert s == s[..|s| - 1] + [s[|s| - 1]];
      if r.Some? then
        assert s[r.value + 1..] == s[..|s| - 1][r.value + 1..] + [s[|s| - 1]];
        r
      else r
  }

  /** The name has a `.` and the text after its last `.`, lower-cased, is in `exts`. */
  function HasExtensionIn(filename: string, exts: set<string>): bool {
    match LastDot(filename)
    case None => false
    case Some(d) => Lower(filename[d + 1..]) in exts
  }

  /** `allowed_file`. */
  function AllowedFile(filename: string): bool {
    HasExtensionIn(filename, AllowedExtensions)
  }

  /** Position `i` of `s` holds a `.` and no `.` comes after it. */
  predicate IsLastDot(s: string, i: int) {
    0 <= i < |s| && s[i] == '.' && '.' !in s[i + 1..]
  }

  lemma HasExtensionInSpec(filename: string, exts: set<string>)
    ensures HasExtensionIn(filename, exts) <==>
              exists i :: IsLastDot(filename, i) && Lower(filename[i + 1..]) in exts
  {
    if HasExtensionIn(filename, exts) {
      var d := LastDot(filename).value;
      assert IsLastDot(filename, d) && Lower(filename[d + 1..]) in exts;
    } else {
      forall i | IsLastDot(filename, i) ensures Lower(filename[i + 1..]) !in exts {
        LastDotUnique(filename, i);
      }
    }
  }

  /**
    * A name is allowed exactly when it has a `.` and the text after its last
    * `.`, lower-cased, is one of the allowed extensions.
    */
  lemma AllowedFileSpec(filename: string)
    ensures AllowedFile(filename) <==>
              exists i :: IsLastDot(filename, i) && Lower(filename[i + 1..]) in AllowedExtensions
  {
    HasExtensionInSpec(filename, AllowedExtensions);
  }

  /** A `.` with no `.` after it is the last one. */
  lemma LastDotUnique(s: string, i: int)
    requires IsLastDot(s, i)
    ensures LastDot(s) == Some(i)
  {
    assert s[i] in s;
  }

  /** A name made of a stem, a dot and a dot-free extension is allowed exactly by its extension. */
  lemma AllowedFileByExtension(stem: string, ext: string)
    requires '.' !in ext
    ensures AllowedFile(stem + "." + ext) <==> Lower(ext) in AllowedExtensions
  {
    var name := stem + "." + ext;
    assert name[|stem|] == '.';
    assert name[|stem| + 1..] == ext;
    LastDotUnique(name, |stem|);
  }

  /** What extraction made of one file: its text and whether it is a Q&A table, or the error it raised. */
  datatype Extraction = Extracted(content: string, isQna: bool) | ExtractFailed(message: string)

  /** One entry of the request's `file` list. */
  datatype UploadFile = UploadFile(filename: string, extraction: Extraction)

  /** Some file in the list has a name. */
  predicate AnyNamed(files: seq<UploadFile>) {
    exists i :: 0 <= i < |files| && files[i].filename != ""
  }

  /** Every named file in the list has an allowed name. */
  predicate AllNamedAllowed(files: seq<UploadFile>) {
    forall i :: 0 <= i < |files| && files[i].filename != "" ==> AllowedFile(files[i].filename)
  }

  /** The scan behind `all(not f.filename for f in files)`, negated. */
  method HasNamedFile(files: seq<UploadFile>) returns (b: bool)
    ensures b == AnyNamed(files)
  {
    b := false;
    for i := 0 to |files|
      invariant b == AnyNamed(files[..i])
    {
      assert files[..i + 1][..i] == files[..i];
      if files[i].filename != "" {
        b := true;
      }
    }
    assert files[..|files|] == files;
  }

  /** The loop that stops at the first named file whose name is not allowed. */
  method NamedFilesAllowed(files: seq<UploadFile>) returns (b: bool)
    ensures b == AllNamedAllowed(files)
  {
    for i := 0 to |files|
      invariant AllNamedAllowed(files[..i])
    {
      assert files[..i + 1][..i] == files[..i];
      if files[i].filename != "" && !AllowedFile(files[i].filename) {
        return false;
      }
    }
    assert files[..|files|] == files;
    return true;
  }

  /**
    * The validation of the file list, in order: no `file` part (the list is
    * empty exactly when the form has no `file` field), every file name empty,
    * or some non-empty name not allowed.
    */
  method ValidateUpload(files: seq<UploadFile>) returns (err: Option<string>)
    ensures err == Some("No file part") <==> files == []
    ensures err == Some("No selected file") <==> files != [] && !AnyNamed(files)
    ensures err == Some("File type not allowed") <==> AnyNamed(files) && !AllNamedAllowed(files)
    ensures err == None <==> AnyNamed(files) && AllNamedAllowed(files)
  {
    if files == [] {
      return Some("No file part");
    }
    var anyNamed := HasNamedFile(files);
    if !anyNamed {
      return Some("No selected file");
    }
    var allowed := NamedFilesAllowed(files);
    if !allowed {
      return Some("File type not allowed");
    }
    return None;
  }

  // Combining the extracted parts.

  const DataHeader: string := "Data:\n"

  /** A Q&A file's name and extracted text, kept until all files are read. */
  datatype QnaPart = QnaPart(name: string, content: string)

  /** The two lists the route collects: Q&A parts, and headed non-Q&A parts. */
  datatype Parts = Parts(qna: seq<QnaPart>, nonQna: seq<string>)

  function Header(name: string): string { "--- " + name + " ---\n" }

  function QnaHeader(name: string): string { "--- " + name + " (Q&A) ---\n" }

  /** The body of a Q&A part: its first `Data:\n` removed, then stripped. */
  function QnaText(content: string): string {
    Strip(ReplaceFirst(content, DataHeader), Python)
  }

  /** The error the route reports when extraction raised `message`. */
  function ErrorMessage(message: string): string {
    "Error: " + Take(message, 100)
  }

  /** What the reading loop has collected after `files`, or the error that ended it. */
  function Collect(files: seq<UploadFile>): Result<Parts, string> {
    if files == [] then Ok(Parts([], []))
    else
      match Collect(files[..|files| - 1])
      case Err(e) => Err(e)
      case Ok(p) =>
        var f := files[|files| - 1];
        if f.filename == "" then Ok(p)
        else
          match f.extraction
          case ExtractFailed(m) => Err(ErrorMessage(m))
          case Extracted(c, isQna) =>
            if isQna then Ok(p.(qna := p.qna + [QnaPart(f.filename, c)]))
            else Ok(p.(nonQna := p.nonQna + [Header(f.filename) + c]))
  }

  /** `Data:\n` followed by each Q&A body and a newline. */
  function QnaBlock(qs: seq<QnaPart>): (r: string)
    ensures DataHeader <= r
  {
    if qs == [] then DataHeader
    else QnaBlock(qs[..|qs| - 1]) + QnaText(qs[|qs| - 1].content) + "\n"
  }

  /** Each Q&A part as a headed section. */
  function QnaSections(qs: seq<QnaPart>): (r: seq<string>)
    ensures |r| == |qs|
  {
    if qs == [] then []
    else QnaSections(qs[..|qs| - 1]) + [QnaHeader(qs[|qs| - 1].name) + QnaText(qs[|qs| - 1].content)]
  }

  /** The document made of the collected parts. */
  function Assemble(p: Parts): string {
    if p.qna != [] && p.nonQna == [] then Strip(QnaBlock(p.qna), Python)
    else Strip(Join(p.nonQna + QnaSections(p.qna), "\n\n"), Python)
  }

  /** The combined document of an upload, or the error message extraction caused. */
  function Combined(files: seq<UploadFile>): Result<string, string> {
    match Collect(files)
    case Err(e) => Err(e)
    case Ok(p) => Ok(Assemble(p))
  }

  /** Once the reading loop has failed it stays failed. */
  lemma {:induction false} CollectErrSticks(files: seq<UploadFile>, i: nat)
    requires i <= |files| && Collect(files[..i]).Err?
    ensures Collect(files) == Collect(files[..i])
    decreases |files| - i
  {
    if i < |files| {
      assert files[..i + 1][..i] == files[..i];
      CollectErrSticks(files, i + 1);
    } else {
      assert files[..i] == files;
    }
  }

  /** The route's reading loop: the parts of the named files, or the first extraction error. */
  method ReadParts(files: seq<UploadFile>) returns (r: Result<Parts, string>)
    ensures r == Collect(files)
  {
    var qnaParts: seq<QnaPart> := [];
    var nonQnaParts: seq<string> := [];
    for i := 0 to |files|
      invariant Collect(files[..i]) == Ok(Parts(qnaParts, nonQnaParts))
    {
      var f := files[i];
      assert files[..i + 1][..i] == files[..i];
      if f.filename != "" {
        match f.extraction
        case ExtractFailed(m) =>
          r := Err(ErrorMessage(m));
          CollectErrSticks(files, i + 1);
          return;
        case Extracted(content, isQna) =>
          if isQna {
            qnaParts := qnaParts + [QnaPart(f.filename, content)];
          } else {
            nonQnaParts := nonQnaParts + [Header(f.filename) + content];
          }
      }
    }
    assert files[..|files|] == files;
    r := Ok(Parts(qnaParts, nonQnaParts));
  }

  /** The loop that builds the all-Q&A block. */
  method BuildQnaBlock(qs: seq<QnaPart>) returns (block: string)
    ensures block == QnaBlock(qs)
  {
    block := DataHeader;
    for j := 0 to |qs|
      invariant block == QnaBlock(qs[..j])
    {
      assert qs[..j + 1][..j] == qs[..j];
      block := block + QnaText(qs[j].content) + "\n";
    }
    assert qs[..|qs|] == qs;
  }

  /** The loop that appends a headed section per Q&A part after the text parts. */
  method BuildSections(nonQna: seq<string>, qs: seq<QnaPart>) returns (parts: seq<string>)
    ensures parts == nonQna + QnaSections(qs)
  {
    parts := nonQna;
    for j := 0 to |qs|
      invariant parts == nonQna + QnaSections(qs[..j])
    {
      assert qs[..j + 1][..j] == qs[..j];
      parts := parts + [QnaHeader(qs[j].name) + QnaText(qs[j].content)];
    }
    assert qs[..|qs|] == qs;
  }

  /** The combining part of `/upload`: the document, or the message of the first extraction error. */
  method CombineParts(files: seq<UploadFile>) returns (r: Result<string, string>)
    ensures r == Combined(files)
  {
    var collected := ReadParts(files);
    if collected.Err? {
      return Err(collected.error);
    }
    var p := collected.value;
    var content: string;
    if p.qna != [] && p.nonQna == [] {
      var block := BuildQnaBlock(p.qna);
      content := Strip(block, Python);
    } else {
      var parts := BuildSections(p.nonQna, p.qna);
      content := Strip(Join(parts, "\n\n"), Python);
    }
    r := Ok(content);
  }

  // Properties of the combination.

  /** Every file with a name was extracted without error. */
  predicate NoFailure(files: seq<UploadFile>) {
    forall i :: 0 <= i < |files| && files[i].filename != "" ==> files[i].extraction.Extracted?
  }

  lemma {:induction false} CollectOk(files: seq<UploadFile>)
    requires NoFailure(files)
    ensures Collect(files).Ok?
  {
    if files != [] {
      CollectOk(files[..|files| - 1]);
    }
  }

  /**
    * The upload fails with the message of the first named file whose
    * extraction failed, cut to 100 characters.
    */
  lemma CombinedFirstFailure(files: seq<UploadFile>, k: nat)
    requires k < |files| && files[k].filename != "" && files[k].extraction.ExtractFailed?
    requires NoFailure(files[..k])
    ensures Combined(files) == Err("Error: " + Take(files[k].extraction.message, 100))
  {
    CollectOk(files[..k]);
    assert files[..k + 1][..k] == files[..k];
    CollectErrSticks(files, k + 1);
  }

  /** The named files, in order. */
  function Named(files: seq<UploadFile>): (r: seq<UploadFile>)
    ensures forall i :: 0 <= i < |r| ==> r[i].filename != ""
  {
    if files == [] then []
    else if files[|files| - 1].filename == "" then Named(files[..|files| - 1])
    else Named(files[..|files| - 1]) + [files[|files| - 1]]
  }

  /** Files without a name are skipped: they change neither the document nor the error. */
  lemma {:induction false} CombinedIgnoresUnnamed(files: seq<UploadFile>)
    ensures Collect(Named(files)) == Collect(files)
    ensures Combined(Named(files)) == Combined(files)
  {
    if files != [] {
      CombinedIgnoresUnnamed(files[..|files| - 1]);
      var n := Named(files[..|files| - 1]);
      if files[|files| - 1].filename != "" {
        assert (n + [files[|files| - 1]])[..|n|] == n;
      }
    }
  }

  /** The named files that extracted as Q&A tables, and the other named files, in order. */
  function QnaFiles(files: seq<UploadFile>): seq<UploadFile> {
    if files == [] then []
    else
      var f := files[|files| - 1];
      if f.filename != "" && f.extraction.Extracted? && f.extraction.isQna
      then QnaFiles(files[..|files| - 1]) + [f]
      else QnaFiles(files[..|files| - 1])
  }

  function TextFiles(files: seq<UploadFile>): seq<UploadFile> {
    if files == [] then []
    else
      var f := files[|files| - 1];
      if f.filename != "" && f.extraction.Extracted? && !f.extraction.isQna
      then TextFiles(files[..|files| - 1]) + [f]
      else TextFiles(files[..|files| - 1])
  }

  /** Collecting two lists one after the other concatenates their parts. */
  lemma {:induction false} CollectAppend(a: seq<UploadFile>, b: seq<UploadFile>)
    requires Collect(a).Ok? && Collect(b).Ok?
    ensures Collect(a + b) == Ok(Parts(Collect(a).value.qna + Collect(b).value.qna,
                                       Collect(a).value.nonQna + Collect(b).value.nonQna))
  {
    if b == [] {
      assert a + b == a;
      assert Collect(a).value.qna + [] == Collect(a).value.qna;
      assert Collect(a).value.nonQna + [] == Collect(a).value.nonQna;
    } else {
      var b' := b[..|b| - 1];
      var f := b[|b| - 1];
      assert Collect(b').Ok?;
      CollectAppend(a, b');
      assert (a + b)[..|a + b| - 1] == a + b';
      assert (a + b)[|a + b| - 1] == f;
      var pa, pb := Collect(a).value, Collect(b').value;
      if f.filename != "" && f.extraction.Extracted? {
        if f.extraction.isQna {
          assert pa.qna + (pb.qna + [QnaPart(f.filename, f.extraction.content)])
              == (pa.qna + pb.qna) + [QnaPart(f.filename, f.extraction.content)];
        } else {
          assert pa.nonQna + (pb.nonQna + [Header(f.filename) + f.extraction.content])
              == (pa.nonQna + pb.nonQna) + [Header(f.filename) + f.extraction.content];
        }
      }
    }
  }

  /** The parts collected from the two kinds of files. */
  lemma {:induction false} CollectSplits(files: seq<UploadFile>)
    requires NoFailure(files)
    ensures Collect(files).Ok?
    ensures Collect(TextFiles(files)) == Ok(Parts([], Collect(files).value.nonQna))
    ensures Collect(QnaFiles(files)) == Ok(Parts(Collect(files).value.qna, []))
  {
    if files != [] {
      var init := files[..|files| - 1];
      CollectSplits(init);
      CollectOk(files);
      var t := TextFiles(init);
      var q := QnaFiles(init);
      assert (t + [files[|files| - 1]])[..|t|] == t;
      assert (q + [files[|files| - 1]])[..|q|] == q;
    }
  }

  /**
    * The document does not depend on how Q&A files and other files are
    * interleaved: Q&A sections always come after every other part.
    */
  lemma CombinedTextBeforeQna(files: seq<UploadFile>)
    requires NoFailure(files)
    ensures Combined(TextFiles(files) + QnaFiles(files)) == Combined(files)
  {
    CollectOk(files);
    CollectSplits(files);
    CollectAppend(TextFiles(files), QnaFiles(files));
    var p := Collect(files).value;
    assert [] + p.qna == p.qna && p.nonQna + [] == p.nonQna;
    assert Collect(TextFiles(files) + QnaFiles(files)) == Collect(files);
  }

  /**
    * When every named file is a Q&A table the document starts with the
    * `Data:` header, whatever the tables hold.
    */
  lemma CombinedQnaOnlyStartsWithData(files: seq<UploadFile>)
    requires Collect(files).Ok? && Collect(files).value.nonQna == [] && Collect(files).value.qna != []
    ensures Combined(files).Ok? && "Data:" <= Combined(files).value
  {
    var block := QnaBlock(Collect(files).value.qna);
    assert Combined(files) == Ok(Strip(block, Python));
    StripKeepsData(block);
  }

  lemma StripKeepsData(block: string)
    requires DataHeader <= block
    ensures "Data:" <= Strip(block, Python)
  {
    assert block == "Data:" + block[5..];
    StripKeepsSolidPrefix("Data:", block[5..], Python);
  }
}

=== FILE: widget.dfy ===
/**
  * The chat widget as the page runs it: one object whose fields are the
  * script's variables, the suggestion list, the input, the transcript and
  * the storage slot, and whose methods are its event handlers. Each method
  * is proved to do what the matching function of `WidgetSpec` says.
  */
module ChatWidget {
  import opened Wrappers
  import opened Text
  import opened Wire
  import opened Transcript
  import opened WidgetSpec

  class Widget {
    var items: seq<Suggestion>
    var listVisible: bool
    var selectedSuggestionIndex: int
    var activeItem: int
    var inputValue: string
    var debounceArmed: bool
    var lookups: seq<string>
    var isGenerating: bool
    var chatAbortController: Controller
    var chatRequests: nat
    var transcript: seq<Message>
    var lastNoMatchQuestion: string
    var lastNoMatchMessage: string
    var scroll: ScrollRequest
    var storage: map<string, seq<Message>>

    /** The widget's fields as one value. */
    ghost function State(): WidgetSpec.State
      reads this
    {
      WidgetSpec.State(items, listVisible, selectedSuggestionIndex, activeItem, inputValue, debounceArmed,
                       lookups, isGenerating, chatAbortController, chatRequests, transcript,
                       lastNoMatchQuestion, lastNoMatchMessage, scroll, storage)
    }

    ghost predicate Valid()
      reads this
    {
      Inv(State())
    }

    /** The page loads: the transcript is restored from a non-empty storage slot. */
    constructor (saved: map<string, seq<Message>>)
      ensures State() == Initial(saved)
      ensures Valid()
    {
      items, listVisible, selectedSuggestionIndex, activeItem := [], false, -1, -1;
      inputValue, debounceArmed, lookups := "", false, [];
      isGenerating, chatAbortController, chatRequests := false, NoController, 0;
      transcript, lastNoMatchQuestion, lastNoMatchMessage := [], "", "";
      scroll, storage := NoScroll, saved;
      new;
      if StorageKey in storage && storage[StorageKey] != [] {
        transcript := storage[StorageKey];
        ScrollToLatestUserMessage();
      }
    }

    /** Finds the latest `You` message by scanning the transcript and asks to scroll to it. */
    method ScrollToLatestUserMessage()
      modifies this
      ensures State() == old(State()).(scroll := UserScroll(transcript))
    {
      var latest: Option<nat> := None;
      for i := 0 to |transcript|
        invariant latest == LatestUserMessage(transcript[..i])
      {
        assert transcript[..i + 1][..i] == transcript[..i];
        if transcript[i].sender == You {
          latest := Some(i);
        }
      }
      assert transcript[..|transcript|] == transcript;
      if latest.Some? {
        scroll := ToMessage(latest.value);
      } else {
        scroll := ToBottom;
      }
    }

    method ShowAutocomplete(suggestions: seq<Suggestion>)
      modifies this
      ensures State() == WidgetSpec.ShowAutocomplete(old(State()), suggestions)
    {
      items := [];
      selectedSuggestionIndex := -1;
      activeItem := -1;
      for i := 0 to |suggestions|
        invariant items == suggestions[..i]
        invariant State() == old(State()).(items := items, selectedSuggestionIndex := -1, activeItem := -1)
      {
        items := items + [suggestions[i]];
      }
      assert suggestions[..|suggestions|] == suggestions;
      listVisible := true;
    }

    method HideAutocomplete()
      modifies this
      ensures State() == WidgetSpec.HideAutocomplete(old(State()))
    {
      listVisible := false;
      selectedSuggestionIndex := -1;
    }

    /** Walks the items, marking item `index` active and unmarking the others. */
    method SetActiveSuggestion(index: int)
      requires Valid()
      modifies this
      ensures State() == WidgetSpec.SetActiveSuggestion(old(State()), index)
    {
      for i := 0 to |items|
        invariant 0 <= index < i ==> activeItem == index && selectedSuggestionIndex == index
        invariant !(0 <= index < i) ==> selectedSuggestionIndex == old(selectedSuggestionIndex)
        invariant !(0 <= index < i) ==> activeItem == (if old(activeItem) < i then -1 else old(activeItem))
        invariant State() == old(State()).(activeItem := activeItem, selectedSuggestionIndex := selectedSuggestionIndex)
      {
        if i == index {
          activeItem := index;
          selectedSuggestionIndex := index;
        } else if activeItem == i {
          activeItem := -1;
        }
      }
    }

    method SelectSuggestion(suggestion: Suggestion)
      modifies this
      ensures State() == WidgetSpec.SelectSuggestion(old(State()), suggestion)
    {
      inputValue := suggestion.question;
      HideAutocomplete();
    }

    method KeyDown(key: Key)
      requires Valid()
      modifies this
      ensures State() == WidgetSpec.KeyDown(old(State()), key)
    {
      var itemCount := |items|;
      if itemCount == 0 {
        return;
      }
      match key
      case ArrowDown =>
        if selectedSuggestionIndex < itemCount - 1 {
          SetActiveSuggestion(selectedSuggestionIndex + 1);
        }
      case ArrowUp =>
        if selectedSuggestionIndex > 0 {
          SetActiveSuggestion(selectedSuggestionIndex - 1);
        }
      case Enter =>
        if selectedSuggestionIndex >= 0 {
          SelectSuggestion(items[selectedSuggestionIndex]);
        } else if Strip(inputValue, JavaScript) != "" {
          Submit();
        }
      case Escape =>
        HideAutocomplete();
      case OtherKey =>
    }

    /** An input event: the pending timer is cleared and a new one armed. */
    method Input(value: string)
      modifies this
      ensures State() == WidgetSpec.Input(old(State()), value)
    {
      inputValue := value;
      debounceArmed := true;
    }

    /** The debounce timer fires and reads the input as it is now. */
    method DebounceFires()
      modifies this
      ensures State() == WidgetSpec.DebounceFires(old(State()))
    {
      debounceArmed := false;
      var query := Strip(inputValue, JavaScript);
      if query == "" {
        HideAutocomplete();
        return;
      }
      lookups := lookups + [query];
    }

    method LookupSettled(i: nat, result: Option<seq<Suggestion>>)
      requires i < |lookups|
      modifies this
      ensures State() == WidgetSpec.LookupSettled(old(State()), i, result)
    {
      lookups := lookups[..i] + lookups[i + 1..];
      if result.Some? && |result.value| > 0 {
        ShowAutocomplete(result.value);
      } else {
        HideAutocomplete();
      }
    }

    method AppendMessage(sender: Sender, text: string, opts: NoMatchOptions)
      modifies this
      ensures State() == WidgetSpec.AppendMessage(old(State()), sender, text, opts)
    {
      ghost var target := WidgetSpec.AppendMessage(State(), sender, text, opts);
      var button := sender == AI && opts.showLlmButton;
      if button {
        lastNoMatchQuestion := OrElse(opts.question, "");
        lastNoMatchMessage := OrElse(opts.noMatchMessage, text);
      }
      transcript := transcript + [Message(sender, text, button)];
      assert State() == target.(scroll := scroll);
      if sender == System {
        scroll := ToBottom;
      } else {
        ScrollToLatestUserMessage();
      }
    }

    method SaveChatHistory()
      modifies this
      ensures State() == old(State()).(storage := old(storage)[StorageKey := transcript])
    {
      storage := storage[StorageKey := transcript];
    }

    /**
      * Empties the transcript and appends one message per prefixed line,
      * computing for each answer line whether the button is asked for.
      */
    method UpdateChatHistory(history: seq<string>, opts: NoMatchOptions) returns (ghost flags: seq<bool>)
      modifies this
      ensures State() == WidgetSpec.UpdateChatHistory(old(State()), history)
      ensures flags == RebuildFlags(history, opts)
    {
      transcript := [];
      flags := [];
      for i := 0 to |history|
        invariant State().(scroll := old(scroll)) == old(State()).(transcript := Rebuild(history[..i]))
        invariant flags == RebuildFlags(history[..i], opts)
      {
        assert history[..i + 1][..i] == history[..i];
        ghost var lineFlags := AppendHistoryLine(history[i], opts);
        flags := flags + lineFlags;
      }
      assert history[..|history|] == history;
      ScrollToLatestUserMessage();
      SaveChatHistory();
    }

    /**
      * One turn of the rebuild loop: a line with a known prefix becomes a
      * message, any other is skipped. `flags` records the button flag
      * passed along with the message, if one was appended.
      */
    method AppendHistoryLine(line: string, opts: NoMatchOptions) returns (ghost flags: seq<bool>)
      modifies this
      ensures transcript == old(transcript) + (if LineMessage(line).Some? then [LineMessage(line).value] else [])
      ensures State().(transcript := old(transcript), scroll := old(scroll)) == old(State())
      ensures flags == RebuildFlags([line], opts)
    {
      if HumanPrefix <= line {
        AppendMessage(You, line[7..], NoOptions);
        flags := [NoOptions.showLlmButton];
      } else if AIPrefix <= line {
        var aiText := line[4..];
        var flag := opts.showLlmButton && opts.noMatchMessage == Some(aiText);
        AppendMessage(ML, aiText, NoMatchOptions(flag, opts.question, opts.noMatchMessage));
        flags := [flag];
      } else if SystemPrefix <= line {
        AppendMessage(System, line[8..], NoOptions);
        flags := [NoOptions.showLlmButton];
      } else {
        flags := [];
      }
    }

    /** Both submit listeners, in the order they were added. */
    method Submit()
      modifies this
      ensures State() == WidgetSpec.Submit(old(State()))
    {
      HideAutocomplete();
      if isGenerating {
        if chatAbortController.Controller? {
          chatAbortController := Controller(true);
        }
        isGenerating := false;
        return;
      }
      var message := Strip(inputValue, JavaScript);
      if message == "" {
        return;
      }
      AppendMessage(You, message, NoOptions);
      inputValue := "";
      chatAbortController := Controller(false);
      isGenerating := true;
      chatRequests := chatRequests + 1;
    }

    /** A chat request settles; the `finally` block leaves the widget idle. */
    method ChatSettled(outcome: ChatOutcome)
      requires chatRequests > 0
      modifies this
      ensures State() == WidgetSpec.ChatSettled(old(State()), outcome)
    {
      var n := chatRequests;
      ShowOutcome(outcome);
      isGenerating := false;
      chatAbortController := NoController;
      chatRequests := n - 1;
    }

    /** The `try` and `catch` blocks of a chat request: what the transcript shows for its outcome. */
    method ShowOutcome(outcome: ChatOutcome)
      modifies this
      ensures State() == WidgetSpec.ShowOutcome(old(State()), outcome)
    {
      match outcome {
        case Replied(reply) =>
          AppendMessage(AI, reply.response, reply.options);
          ghost var replyFlags := UpdateChatHistory(reply.fullHistory, reply.options);
        case Aborted =>
          AppendMessage(System, StoppedText, NoOptions);
        case Failed =>
          AppendMessage(System, ErrorText, NoOptions);
      }
    }

    method ClearChatSettled(status: Option<string>)
      modifies this
      ensures State() == WidgetSpec.ClearChatSettled(old(State()), status)
    {
      if status == Some("success") {
        transcript := [];
        storage := storage - {StorageKey};
      }
    }

    method ClearAllSettled(status: Option<string>)
      modifies this
      ensures State() == WidgetSpec.ClearAllSettled(old(State()), status)
    {
      if status == Some("success") {
        transcript := [];
        storage := map[];
      }
    }

    /** Dispatches one event to its handler. */
    method Handle(e: Event)
      requires Valid()
      modifies this
      ensures Valid()
      ensures State() == Step(old(State()), e)
    {
      match e
      case Typed(v) => Input(v);
      case TimerFired =>
        if debounceArmed {
          DebounceFires();
        }
      case LookupDone(i, result) =>
        if i < |lookups| {
          LookupSettled(i, result);
        }
      case Hovered(i) =>
        if listVisible && i < |items| {
          SetActiveSuggestion(i);
        }
      case ItemClicked(i) =>
        if listVisible && i < |items| {
          SelectSuggestion(items[i]);
        }
      case ClickedOutside => HideAutocomplete();
      case Pressed(k) => KeyDown(k);
      case Submitted => Submit();
      case ChatDone(o) =>
        if chatRequests > 0 {
          ChatSettled(o);
        }
      case ClearChatDone(status) => ClearChatSettled(status);
      case ClearAllDone(status) => ClearAllSettled(status);
    }
  }
}

=== FILE: widget_spec.dfy ===
/**
  * The chat widget's state and what each of its event handlers does to it,
  * as functions from state to state. Timers and fetches are explicit events:
  * the debounce timer firing, an autocomplete lookup completing, a chat
  * request settling with a reply, an abort or a failure, and the two clear
  * requests completing.
  */
module WidgetSpec {
  import opened Wrappers
  import opened Text
  import opened Wire
  import opened Transcript

  /** The storage slot that mirrors the transcript. */
  const StorageKey: string := "chatHistory"
  const StoppedText: string := "Generation stopped."
  const ErrorText: string := "An error occurred while processing your message."

  /** The abort controller of the latest chat request, if one is kept. */
  datatype Controller = NoController | Controller(aborted: bool)

  /** Where the view was last asked to scroll: to a message, or to the bottom. */
  datatype ScrollRequest = NoScroll | ToMessage(index: nat) | ToBottom

  datatype State = State(
    items: seq<Suggestion>,         // the suggestion list's items, shown or not
    listVisible: bool,
    selectedSuggestionIndex: int,
    activeItem: int,                // the item marked active, or -1
    inputValue: string,
    debounceArmed: bool,            // a debounce timer is pending
    lookups: seq<string>,           // the queries of the lookups in flight
    isGenerating: bool,
    chatAbortController: Controller,
    chatRequests: nat,              // chat requests not yet settled
    transcript: seq<Message>,
    lastNoMatchQuestion: string,
    lastNoMatchMessage: string,
    scroll: ScrollRequest,
    storage: map<string, seq<Message>>)

  /**
    * What the handlers keep true: the selection names an existing item or is
    * -1, the active item is the selected one whenever there is a selection,
    * and a generating widget has a controller and a request in flight.
    */
  predicate Inv(s: State) {
    && -1 <= s.selectedSuggestionIndex < |s.items|
    && -1 <= s.activeItem < |s.items|
    && (s.selectedSuggestionIndex >= 0 ==> s.activeItem == s.selectedSuggestionIndex)
    && (s.isGenerating ==> s.chatAbortController.Controller? && s.chatRequests > 0)
  }

  /** The page as loaded: the transcript comes back from storage when the slot holds one. */
  function Initial(storage: map<string, seq<Message>>): (s: State)
    ensures Inv(s)
    ensures StorageKey in storage && storage[StorageKey] != [] ==> s.transcript == storage[StorageKey]
    ensures !(StorageKey in storage && storage[StorageKey] != []) ==> s.transcript == [] && s.scroll == NoScroll
  {
    var loaded := StorageKey in storage && storage[StorageKey] != [];
    var t := if loaded then storage[StorageKey] else [];
    State([], false, -1, -1, "", false, [], false, NoController, 0, t, "", "",
          if loaded then UserScroll(t) else NoScroll, storage)
  }

  /** The scroll a message append asks for: the latest `You` message, or the bottom when there is none. */
  function UserScroll(t: seq<Message>): ScrollRequest {
    match LatestUserMessage(t)
    case Some(i) => ToMessage(i)
    case None => ToBottom
  }

  /** The view scrolls to a message exactly when there is a `You` message, and then to the latest one. */
  lemma UserScrollSpec(t: seq<Message>)
    ensures UserScroll(t).ToMessage? <==> exists i :: 0 <= i < |t| && t[i].sender == You
    ensures UserScroll(t).ToMessage? ==>
              && UserScroll(t).index < |t| && t[UserScroll(t).index].sender == You
              && forall j :: UserScroll(t).index < j < |t| ==> t[j].sender != You
  {
  }

  // The suggestion list.

  function ShowAutocomplete(s: State, suggestions: seq<Suggestion>): (r: State)
    ensures r.items == suggestions && r.listVisible && r.selectedSuggestionIndex == -1 && r.activeItem == -1
    ensures Inv(s) ==> Inv(r)
  {
    s.(items := suggestions, listVisible := true, selectedSuggestionIndex := -1, activeItem := -1)
  }

  /** Hiding keeps the items: only the visibility and the selection change. */
  function HideAutocomplete(s: State): (r: State)
    ensures !r.listVisible && r.selectedSuggestionIndex == -1 && r.items == s.items
    ensures Inv(s) ==> Inv(r)
  {
    s.(listVisible := false, selectedSuggestionIndex := -1)
  }

  /** Marks item `index` active and selects it; an index naming no item only clears the marks. */
  function SetActiveSuggestion(s: State, index: int): (r: State)
    ensures r.selectedSuggestionIndex == (if 0 <= index < |s.items| then index else s.selectedSuggestionIndex)
    ensures 0 <= r.activeItem ==> r.activeItem == index
    ensures Inv(s) && 0 <= index < |s.items| ==> Inv(r)
  {
    if 0 <= index < |s.items| then s.(activeItem := index, selectedSuggestionIndex := index)
    else s.(activeItem := -1)
  }

  function SelectSuggestion(s: State, suggestion: Suggestion): (r: State)
    ensures r.inputValue == suggestion.question && !r.listVisible && r.selectedSuggestionIndex == -1
    ensures r.items == s.items && r.transcript == s.transcript
    ensures Inv(s) ==> Inv(r)
  {
    HideAutocomplete(s.(inputValue := suggestion.question))
  }

  datatype Key = ArrowDown | ArrowUp | Enter | Escape | OtherKey

  /**
    * The input's keydown handler. With no items it does nothing; the arrows
    * move the selection without wrapping; Enter picks the selected item or
    * submits non-blank input; Escape hides the list.
    */
  function KeyDown(s: State, key: Key): (r: State)
    requires Inv(s)
    ensures s.items == [] ==> r == s
    ensures r.items == s.items && r.storage == s.storage
    ensures key == ArrowDown && s.items != [] ==>
              r.selectedSuggestionIndex == if s.selectedSuggestionIndex < |s.items| - 1
                                           then s.selectedSuggestionIndex + 1 else s.selectedSuggestionIndex
    ensures key == ArrowUp && s.items != [] ==>
              r.selectedSuggestionIndex == if s.selectedSuggestionIndex > 0
                                           then s.selectedSuggestionIndex - 1 else s.selectedSuggestionIndex
    ensures key == Enter && s.items != [] && s.selectedSuggestionIndex >= 0 ==>
              r.inputValue == s.items[s.selectedSuggestionIndex].question && !r.listVisible
              && r.selectedSuggestionIndex == -1
    ensures (key == ArrowDown || key == ArrowUp) ==>
              r == s.(selectedSuggestionIndex := r.selectedSuggestionIndex, activeItem := r.activeItem)
    ensures (key == ArrowDown || key == ArrowUp) ==>
              r.activeItem == if r.selectedSuggestionIndex != s.selectedSuggestionIndex
                              then r.selectedSuggestionIndex else s.activeItem
    ensures key == ArrowDown && s.selectedSuggestionIndex >= |s.items| - 1 ==> r == s
    ensures key == ArrowUp && s.selectedSuggestionIndex <= 0 ==> r == s
    ensures key == Enter && s.items != [] && s.selectedSuggestionIndex < 0 ==>
              r == if Strip(s.inputValue, JavaScript) != "" then Submit(s) else s
    ensures key == Enter && s.items != [] && s.selectedSuggestionIndex >= 0 ==>
              r == s.(inputValue := s.items[s.selectedSuggestionIndex].question, listVisible := false,
                      selectedSuggestionIndex := -1)
    ensures key == Escape && s.items != [] ==> r == s.(listVisible := false, selectedSuggestionIndex := -1)
    ensures key == OtherKey ==> r == s
    ensures Inv(r)
  {
    var n := |s.items|;
    var i := s.selectedSuggestionIndex;
    if n == 0 then s
    else
      match key
      case ArrowDown => if i < n - 1 then SetActiveSuggestion(s, i + 1) else s
      case ArrowUp => if i > 0 then SetActiveSuggestion(s, i - 1) else s
      case Enter =>
        if i >= 0 then SelectSuggestion(s, s.items[i])
        else if Strip(s.inputValue, JavaScript) != "" then Submit(s)
        else s
      case Escape => HideAutocomplete(s)
      case OtherKey => s
  }

  // The debounced lookup.

  /** An input event: the value changes, the pending timer is dropped and a new one armed. */
  function Input(s: State, value: string): (r: State)
    ensures Inv(s) ==> Inv(r)
  {
    s.(inputValue := value, debounceArmed := true)
  }

  /**
    * The debounce timer fires: the trimmed input as it is now is looked up,
    * unless it is empty, in which case the list is hidden.
    */
  function DebounceFires(s: State): (r: State)
    ensures !r.debounceArmed
    ensures Strip(s.inputValue, JavaScript) == "" ==> r.lookups == s.lookups && !r.listVisible
    ensures Strip(s.inputValue, JavaScript) != "" ==> r.lookups == s.lookups + [Strip(s.inputValue, JavaScript)]
    ensures r == s.(debounceArmed := false, lookups := r.lookups, listVisible := r.listVisible,
                    selectedSuggestionIndex := r.selectedSuggestionIndex)
    ensures Inv(s) ==> Inv(r)
  {
    var s1 := s.(debounceArmed := false);
    var query := Strip(s.inputValue, JavaScript);
    if query == "" then HideAutocomplete(s1) else s1.(lookups := s1.lookups + [query])
  }

  /**
    * Lookup `i` completes: a non-empty list of suggestions is shown, anything
    * else hides the list. Whether the input still reads the looked-up query
    * is not checked.
    */
  function LookupSettled(s: State, i: nat, result: Option<seq<Suggestion>>): (r: State)
    requires i < |s.lookups|
    ensures r.lookups == s.lookups[..i] + s.lookups[i + 1..]
    ensures result.Some? && result.value != [] ==> r.items == result.value && r.listVisible
    ensures !(result.Some? && result.value != []) ==> r.items == s.items && !r.listVisible
    ensures r == s.(lookups := r.lookups, items := r.items, listVisible := r.listVisible,
                    selectedSuggestionIndex := r.selectedSuggestionIndex, activeItem := r.activeItem)
    ensures Inv(s) ==> Inv(r)
  {
    var s1 := s.(lookups := s.lookups[..i] + s.lookups[i + 1..]);
    if result.Some? && |result.value| > 0 then ShowAutocomplete(s1, result.value) else HideAutocomplete(s1)
  }

  // The transcript.

  /** JavaScript's `value || fallback` for an optional string. */
  function OrElse(value: Option<string>, fallback: string): (r: string)
    ensures r == fallback <== value.None? || value.value == ""
    ensures r != fallback ==> value == Some(r)
  {
    if value.Some? && value.value != "" then value.value else fallback
  }

  /**
    * Appends one message. Only an `AI` message asked to show the button gets
    * it, and only then are the remembered no-match question and message set.
    */
  function AppendMessage(s: State, sender: Sender, text: string, opts: NoMatchOptions): (r: State)
    ensures r.storage == s.storage
    ensures r == s.(transcript := r.transcript, scroll := r.scroll, lastNoMatchQuestion := r.lastNoMatchQuestion,
                    lastNoMatchMessage := r.lastNoMatchMessage)
    ensures r.transcript == s.transcript + [Message(sender, text, sender == AI && opts.showLlmButton)]
    ensures !(sender == AI && opts.showLlmButton) ==>
              r.lastNoMatchQuestion == s.lastNoMatchQuestion && r.lastNoMatchMessage == s.lastNoMatchMessage
    ensures r.scroll == if sender == System then ToBottom else UserScroll(r.transcript)
    ensures Inv(s) ==> Inv(r)
  {
    var button := sender == AI && opts.showLlmButton;
    var s1 := if button then s.(lastNoMatchQuestion := OrElse(opts.question, ""),
                                lastNoMatchMessage := OrElse(opts.noMatchMessage, text))
              else s;
    var t := s.transcript + [Message(sender, text, button)];
    s1.(transcript := t, scroll := if sender == System then ToBottom else UserScroll(t))
  }

  /**
    * `updateChatHistory`: the transcript is replaced by the rebuilt history,
    * the view scrolls to the latest `You` message and the storage slot is
    * set to the new transcript.
    */
  function UpdateChatHistory(s: State, history: seq<string>): (r: State)
    ensures r.transcript == Rebuild(history) && r.storage == s.storage[StorageKey := r.transcript]
    ensures r.scroll == UserScroll(r.transcript)
    ensures forall i :: 0 <= i < |r.transcript| ==> !r.transcript[i].hasButton
    ensures Inv(s) ==> Inv(r)
  {
    var t := Rebuild(history);
    s.(transcript := t, scroll := UserScroll(t), storage := s.storage[StorageKey := t])
  }

  /** Rebuilding from the same history twice is the same as once. */
  lemma UpdateChatHistoryIdempotent(s: State, history: seq<string>)
    ensures UpdateChatHistory(UpdateChatHistory(s, history), history) == UpdateChatHistory(s, history)
  {
    var r := UpdateChatHistory(s, history);
    assert r.storage[StorageKey := r.transcript] == r.storage;
  }

  // Sending and stopping.

  /**
    * The form's two submit listeners in order: the list is hidden; then a
    * submit while generating stops the request, a blank input does nothing
    * more, and any other input is sent.
    */
  function Submit(s: State): (r: State)
    ensures r.storage == s.storage
    ensures !r.listVisible && r.selectedSuggestionIndex == -1 && r.items == s.items
    ensures s.isGenerating ==>
              && r.transcript == s.transcript && !r.isGenerating && r.chatRequests == s.chatRequests
              && r.chatAbortController == (if s.chatAbortController.Controller? then Controller(true) else NoController)
    ensures s.isGenerating ==>
              r == s.(listVisible := false, selectedSuggestionIndex := -1, isGenerating := false,
                      chatAbortController := if s.chatAbortController.Controller? then Controller(true) else NoController)
    ensures !s.isGenerating && Strip(s.inputValue, JavaScript) == "" ==> r == HideAutocomplete(s)
    ensures !s.isGenerating && Strip(s.inputValue, JavaScript) != "" ==>
              r == s.(listVisible := false, selectedSuggestionIndex := -1, transcript := r.transcript,
                      scroll := r.scroll, inputValue := "", isGenerating := true,
                      chatAbortController := Controller(false), chatRequests := s.chatRequests + 1)
    ensures !s.isGenerating && Strip(s.inputValue, JavaScript) != "" ==>
              && r.transcript == s.transcript + [Message(You, Strip(s.inputValue, JavaScript), false)]
              && r.inputValue == "" && r.isGenerating && r.chatAbortController == Controller(false)
              && r.chatRequests == s.chatRequests + 1
    ensures Inv(s) ==> Inv(r)
  {
    var s1 := HideAutocomplete(s);
    if s1.isGenerating then
      s1.(chatAbortController := if s1.chatAbortController.Controller? then Controller(true) else NoController,
          isGenerating := false)
    else
      var message := Strip(s1.inputValue, JavaScript);
      if message == "" then s1
      else
        var s2 := AppendMessage(s1, You, message, NoOptions);
        s2.(inputValue := "", chatAbortController := Controller(false), isGenerating := true,
            chatRequests := s2.chatRequests + 1)
  }

  /** What the server sent back for a chat request. */
  datatype ChatReply = ChatReply(response: string, fullHistory: seq<string>, options: NoMatchOptions)

  /** How a chat request ended. */
  datatype ChatOutcome = Replied(reply: ChatReply) | Aborted | Failed

  /**
    * A chat request settles: the reply is appended and the history rebuilt,
    * or a system message says it was stopped or failed; in every case the
    * widget is left idle without a controller.
    */
  function ChatSettled(s: State, outcome: ChatOutcome): (r: State)
    requires s.chatRequests > 0
    ensures !r.isGenerating && r.chatAbortController == NoController && r.chatRequests == s.chatRequests - 1
    ensures outcome.Replied? ==>
              && r.transcript == Rebuild(outcome.reply.fullHistory)
              && r.storage == s.storage[StorageKey := r.transcript]
              && forall i :: 0 <= i < |r.transcript| ==> !r.transcript[i].hasButton
    ensures outcome.Aborted? ==>
              r.transcript == s.transcript + [Message(System, StoppedText, false)] && r.storage == s.storage
    ensures outcome.Failed? ==>
              r.transcript == s.transcript + [Message(System, ErrorText, false)] && r.storage == s.storage
    ensures Inv(s) ==> Inv(r)
  {
    ShowOutcome(s, outcome).(isGenerating := false, chatAbortController := NoController,
                             chatRequests := s.chatRequests - 1)
  }

  /** What the transcript shows for a settled request, before the widget is made idle. */
  function ShowOutcome(s: State, outcome: ChatOutcome): State {
    match outcome
    case Replied(reply) =>
      UpdateChatHistory(AppendMessage(s, AI, reply.response, reply.options), reply.fullHistory)
    case Aborted => AppendMessage(s, System, StoppedText, NoOptions)
    case Failed => AppendMessage(s, System, ErrorText, NoOptions)
  }

  // Clearing.

  /** `clearChat` completes: only a `success` status empties the transcript and removes the slot. */
  function ClearChatSettled(s: State, status: Option<string>): (r: State)
    ensures status == Some("success") ==> r.transcript == [] && StorageKey !in r.storage
    ensures status == Some("success") ==> r == s.(transcript := [], storage := s.storage - {StorageKey})
    ensures status != Some("success") ==> r == s
    ensures Inv(s) ==> Inv(r)
  {
    if status == Some("success") then s.(transcript := [], storage := s.storage - {StorageKey}) else s
  }

  /** `clearAll` completes: only a `success` status empties the transcript and all of storage. */
  function ClearAllSettled(s: State, status: Option<string>): (r: State)
    ensures status == Some("success") ==> r.transcript == [] && r.storage == map[]
    ensures status == Some("success") ==> r == s.(transcript := [], storage := map[])
    ensures status != Some("success") ==> r == s
    ensures Inv(s) ==> Inv(r)
  {
    if status == Some("success") then s.(transcript := [], storage := map[]) else s
  }

  // Events.

  datatype Event =
    | Typed(value: string)
    | TimerFired
    | LookupDone(index: nat, result: Option<seq<Suggestion>>)
    | Hovered(index: nat)
    | ItemClicked(index: nat)
    | ClickedOutside
    | Pressed(key: Key)
    | Submitted
    | ChatDone(outcome: ChatOutcome)
    | ClearChatDone(status: Option<string>)
    | ClearAllDone(status: Option<string>)

  /**
    * One event. A timer that is not armed, a lookup or chat request that is
    * not in flight, and an item that is not on the shown list cannot produce
    * an event, so those leave the state alone.
    */
  function Step(s: State, e: Event): (r: State)
    requires Inv(s)
    ensures Inv(r)
  {
    match e
    case Typed(v) => Input(s, v)
    case TimerFired => if s.debounceArmed then DebounceFires(s) else s
    case LookupDone(i, result) => if i < |s.lookups| then LookupSettled(s, i, result) else s
    case Hovered(i) => if s.listVisible && i < |s.items| then SetActiveSuggestion(s, i) else s
    case ItemClicked(i) => if s.listVisible && i < |s.items| then SelectSuggestion(s, s.items[i]) else s
    case ClickedOutside => HideAutocomplete(s)
    case Pressed(k) => KeyDown(s, k)
    case Submitted => Submit(s)
    case ChatDone(o) => if s.chatRequests > 0 then ChatSettled(s, o) else s
    case ClearChatDone(status) => ClearChatSettled(s, status)
    case ClearAllDone(status) => ClearAllSettled(s, status)
  }

  function Run(s: State, events: seq<Event>): (r: State)
    requires Inv(s)
    ensures Inv(r)
    decreases events
  {
    if events == [] then s else Run(Step(s, events[0]), events[1..])
  }

  lemma {:induction false} RunAppend(s: State, a: seq<Event>, b: seq<Event>)
    requires Inv(s)
    ensures Run(s, a + b) == Run(Run(s, a), b)
    decreases a
  {
    if a != [] {
      assert (a + b)[0] == a[0] && (a + b)[1..] == a[1..] + b;
      RunAppend(Step(s, a[0]), a[1..], b);
    } else {
      assert a + b == b;
    }
  }

  // Properties over several events.

  function Presses(key: Key, n: nat): (r: seq<Event>)
    ensures |r| == n && forall i :: 0 <= i < n ==> r[i] == Pressed(key)
  {
    if n == 0 then [] else [Pressed(key)] + Presses(key, n - 1)
  }

  /** Pressing ArrowDown `n` times moves the selection down `n` places, stopping at the last item. */
  lemma {:induction false} ArrowDownRepeated(s: State, n: nat)
    requires Inv(s) && s.items != []
    ensures Run(s, Presses(ArrowDown, n)).selectedSuggestionIndex
         == if s.selectedSuggestionIndex + n < |s.items| then s.selectedSuggestionIndex + n else |s.items| - 1
    ensures Run(s, Presses(ArrowDown, n)).items == s.items
    decreases n
  {
    if n > 0 {
      var s1 := Step(s, Pressed(ArrowDown));
      assert Presses(ArrowDown, n)[1..] == Presses(ArrowDown, n - 1);
      ArrowDownRepeated(s1, n - 1);
    }
  }

  /**
    * Pressing ArrowUp `n` times moves the selection up `n` places, stopping
    * at the first item; with no selection it stays without one.
    */
  lemma {:induction false} ArrowUpRepeated(s: State, n: nat)
    requires Inv(s) && s.items != []
    ensures Run(s, Presses(ArrowUp, n)).selectedSuggestionIndex
         == if s.selectedSuggestionIndex <= 0 then s.selectedSuggestionIndex
            else if s.selectedSuggestionIndex - n >= 0 then s.selectedSuggestionIndex - n else 0
    ensures Run(s, Presses(ArrowUp, n)).items == s.items
    decreases n
  {
    if n > 0 {
      var s1 := Step(s, Pressed(ArrowUp));
      assert Presses(ArrowUp, n)[1..] == Presses(ArrowUp, n - 1);
      ArrowUpRepeated(s1, n - 1);
    }
  }

  /** Hiding the list keeps its items, so ArrowDown still selects the first hidden item. */
  lemma HiddenItemsStillNavigable(s: State)
    requires Inv(s) && s.items != []
    ensures var r := Run(s, [Pressed(Escape), Pressed(ArrowDown)]);
            !r.listVisible && r.selectedSuggestionIndex == 0 && r.items == s.items
  {
    var s1 := Step(s, Pressed(Escape));
    assert [Pressed(Escape), Pressed(ArrowDown)][1..] == [Pressed(ArrowDown)];
    RunSingle(s1, Pressed(ArrowDown));
  }

  function Typing(values: seq<string>): (r: seq<Event>)
    ensures |r| == |values|
  {
    if values == [] then [] else [Typed(values[0])] + Typing(values[1..])
  }

  /**
    * However many input events come before the timer fires, they arm one
    * timer and issue no lookup; the input is the last value typed.
    */
  lemma {:induction false} TypingArmsOneTimer(s: State, values: seq<string>)
    requires Inv(s) && values != []
    ensures var r := Run(s, Typing(values));
            r.debounceArmed && r.lookups == s.lookups && r.inputValue == values[|values| - 1]
            && r.transcript == s.transcript && r.items == s.items
    decreases values
  {
    var s1 := Step(s, Typed(values[0]));
    assert Typing(values)[1..] == Typing(values[1..]);
    if |values| > 1 {
      TypingArmsOneTimer(s1, values[1..]);
    }
  }

  /**
    * Typing and then letting the timer fire issues at most one lookup, for
    * the trimmed last value; a blank last value issues none and hides the list.
    */
  lemma DebounceCoalesces(s: State, values: seq<string>)
    requires Inv(s) && values != []
    ensures var typed := Run(s, Typing(values));
            var r := Step(typed, TimerFired);
            var query := Strip(values[|values| - 1], JavaScript);
            && !r.debounceArmed
            && (query != "" ==> r.lookups == s.lookups + [query])
            && (query == "" ==> r.lookups == s.lookups && !r.listVisible)
  {
    TypingArmsOneTimer(s, values);
    var typed := Run(s, Typing(values));
    FireArmed(typed);
  }

  lemma FireArmed(t: State)
    requires Inv(t) && t.debounceArmed
    ensures Step(t, TimerFired) == DebounceFires(t)
  {
  }

  lemma RunSingle(s: State, e: Event)
    requires Inv(s)
    ensures Run(s, [e]) == Step(s, e)
  {
    assert [e][1..] == [];
  }

  /**
    * After a reply has been rebuilt, no message carries the "Ask LLM"
    * button, even when the reply asked for it on its own message.
    */
  lemma ReplyShowsNoButton(s: State, response: string, history: seq<string>, opts: NoMatchOptions)
    requires Inv(s) && s.chatRequests > 0
    ensures var r := Step(s, ChatDone(Replied(ChatReply(response, history, opts))));
            forall i :: 0 <= i < |r.transcript| ==> !r.transcript[i].hasButton
  {
  }

  /** The storage slot never holds a message with a button, if it did not to begin with. */
  predicate StoredWithoutButtons(s: State) {
    StorageKey in s.storage ==> forall i :: 0 <= i < |s.storage[StorageKey]| ==> !s.storage[StorageKey][i].hasButton
  }

  lemma StepKeepsStoredWithoutButtons(s: State, e: Event)
    requires Inv(s) && StoredWithoutButtons(s)
    ensures StoredWithoutButtons(Step(s, e))
  {
    match e
    case ChatDone(o) =>
      if s.chatRequests > 0 {
        var r := ChatSettled(s, o);
        assert Step(s, e) == r;
      }
    case _ =>
  }

  /**
    * The chat exchange the server adds is rebuilt as the user's question and
    * the answer, after the messages of the earlier history.
    */
  lemma ChatReplyTranscript(s: State, h: seq<string>, input: string, answer: string, opts: NoMatchOptions)
    requires Inv(s) && s.chatRequests > 0
    ensures var r := Step(s, ChatDone(Replied(ChatReply(answer, h + [HumanPrefix + input, AIPrefix + answer], opts))));
            r.transcript == Rebuild(h) + [Message(You, input, false), Message(ML, answer, false)]
            && r.storage[StorageKey] == r.transcript
            && r.scroll == ToMessage(|Rebuild(h)|)
  {
    ExchangeRebuild(h, input, answer);
    var t := Rebuild(h) + [Message(You, input, false), Message(ML, answer, false)];
    assert LatestUserMessage(t) == Some(|Rebuild(h)|);
  }

  /**
    * A request that settles while a newer one is still in flight leaves the
    * widget idle and without a controller, so the newer request, still in
    * flight, can no longer be stopped from the Send/Stop button.
    */
  lemma SettlingOlderRequestIdlesNewer(s: State, o: ChatOutcome)
    requires Inv(s) && s.chatRequests >= 2
    ensures var r := Step(s, ChatDone(o));
            !r.isGenerating && r.chatAbortController == NoController && r.chatRequests > 0
  {
  }
}

=== FILE: wire.dfy ===
/**
  * What the browser widget and the server share: the role prefixes of the
  * conversation lines the server keeps and returns as `full_history`, and the
  * shape of one autocomplete suggestion.
  */
module Wire {

  const HumanPrefix: string := "Human: "
  const AIPrefix: string := "AI: "
  const SystemPrefix: string := "System: "

  /** One row of the question-and-answer table, as `/autocomplete` returns it. */
  datatype Suggestion = Suggestion(question: string, answer: string)

  /**
    * A conversation as the server keeps it: a `Human: ` line and the `AI: `
    * line that answers it, pair after pair.
    */
  predicate WellFormedHistory(h: seq<string>) {
    && |h| % 2 == 0
    && forall i :: 0 <= i < |h| ==> if i % 2 == 0 then HumanPrefix <= h[i] else AIPrefix <= h[i]
  }
}

=== FILE: wrappers.dfy ===
/** Option and Result, used for values the source may leave undefined and for error returns. */
module Wrappers {

  datatype Option<+T> = None | Some(value: T) {
    /** The value, or `default` when there is none. */
    function GetOr(default: T): T {
      match this
      case Some(v) => v
      case None => default
    }
  }

  datatype Result<+R, +E> = Ok(value: R) | Err(error: E)
}
